=== FILE: README.md ===
# WorkWise HRMS front end — a Dafny model

WorkWise HRMS is a single-page HR portal written in React. Employees check in
and out, request leave, apply for internal jobs and track department tasks.
HR administrators manage employee records, recruitment, leave approval and
payroll. The backend is a separate REST service and is not part of this
model. This project models the part of the front end that makes decisions:

- the session store (`AuthContext`): restoring a session from local storage,
  login, logout and the `useAuth` hook;
- the route guard (`Layout`), the start page (`Index`) and the sidebar;
- each screen's list filter, status badges and derived flags, and the
  client-side gates its handlers apply before they send a request;
- the totals and counters the screens compute: the leave statistics, the
  payroll footer total and the payroll progress bar.

Every handler is a pure function. It takes the screen state, the browser's
storage and the backend's reply, and returns an `Outcome`. An `Outcome` holds
the new state and the effects: whether a request was sent, the storage
afterwards, any navigation target, the toast shown, and whether the list is
loaded again. The backend is never modelled. Each handler is proved correct
for every possible reply (`Http.Reply`): no answer, a non-2xx status with or
without a JSON body, or a 2xx body.

Modules:

| file | module | models |
|---|---|---|
| wrappers.dfy | Wrappers | `Option` and `Result` |
| text.dfy | Text | JavaScript `toLowerCase` (ASCII), `includes`, `trim` and truthiness |
| seqs.dfy | Seqs | `filter`, `find`/`findIndex` and a sort by key, each with a full contract |
| effects.dfy | Effects | the two local-storage keys, users, dates and toasts |
| http.dfy | Http | the shared request pattern: token check, reply classification, 401 handling |
| auth.dfy | Auth | `src/context/AuthContext.tsx` |
| guard.dfy | Guard | `src/components/Layout.tsx`, `src/pages/Index.tsx` and the role guards in the two dashboards |
| sidebar.dfy | Sidebar | `src/components/Sidebar.tsx` |
| employees.dfy | Employees | `src/components/EmployeeManagement.tsx` |
| payroll.dfy | Payroll | `src/components/PayrollSystem.tsx` |
| recruitment.dfy | Recruitment | `src/components/RecruitmentPanel.tsx` |
| leave_management.dfy | LeaveManagement | `src/components/LeaveManagement.tsx` |
| leave_requests.dfy | LeaveRequests | `src/components/LeaveRequests.tsx` |
| attendance.dfy | Attendance | `src/components/AttendanceSystem.tsx` |
| dashboard.dfy | Dashboard | `src/pages/Dashboard.tsx` |
| department_work.dfy | DepartmentWork | `src/components/DepartmentWork.tsx` |
| job_roles.dfy | JobRoles | `src/components/JobRoles.tsx` |
| ui.dfy | Ui | the badge colours |

Two behaviours of the code are easy to misread:

- An expired session does not clear the whole session. On a 401 whose body
  is JSON the code removes only `hrms_token` and navigates
  to "/login", and only on the employee and leave-management screens. The
  stored user and the in-memory user stay. "/login" is not a declared route.
  A 401 whose body is not JSON fails while its body is parsed, so it ends as
  an ordinary error.
- The guard sends a signed-in user whose role is neither "hr" nor "employee"
  to "/dashboard". "/dashboard" then redirects that user to itself
  (`Guard.UnknownRoleLoops`).

## Model

The screen filters are all built on `Seqs.Filter`. Their own contracts state
membership and order; that every occurrence of a passing element survives
(duplicates included) follows for each of them from `Seqs.FilterMultiset`.

| member | source | states |
|---|---|---|
| Auth.View | src/context/AuthContext.tsx:106-109 | `isAuthenticated` is exactly "a user is set"; the user and the loading flag are passed through |
| Auth.Restore | src/context/AuthContext.tsx:27-36 | the stored user is adopted when both the user key and a non-empty token are present, and the user changes only in that case; loading stops either way; storage is untouched |
| Auth.RestoreAfterMount | src/context/AuthContext.tsx:27-36 | after the first page load the session is authenticated iff both keys were stored, with the stored user; loading has stopped |
| Auth.Mount | src/context/AuthContext.tsx:23-24 | the provider starts with no user and the loading flag set, so it is not yet authenticated |
| Auth.BeginLogin | src/context/AuthContext.tsx:39 | login sets the loading flag and changes nothing else |
| Auth.FinishLogin | src/context/AuthContext.tsx:52-93 | a refused login or profile request leaves user and storage unchanged and shows an error; an accepted one stores the profile as the user, writes both keys, shows a welcome toast, and goes to "/hr-dashboard" iff the profile's role is "hr", else to "/dashboard"; loading ends in both cases |
| Auth.LoginIgnoresRole | src/context/AuthContext.tsx:38-94 | the role passed to `login` never changes the outcome |
| Auth.Login | src/context/AuthContext.tsx:38-94 | a successful login adopts the `/me` profile, writes both keys, shows a welcome toast and goes to the role's home page; a failure keeps user and storage, shows an error and does not navigate; loading stops in both cases |
| Auth.FailedLoginChangesNothing | src/context/AuthContext.tsx:88-92 | a failed login leaves the session as it was apart from clearing the loading flag |
| Auth.LoginThenReloadRestores | src/context/AuthContext.tsx:78-79 | the keys a successful login writes make the next page load restore the same profile, when the token is non-empty |
| Auth.LoginAuthenticates | src/context/AuthContext.tsx:69-79 | after a successful login the session is authenticated, and its role is the server's, not the one picked on the form |
| Auth.Logout | src/context/AuthContext.tsx:96-102 | logout clears the user and both keys, shows a toast and goes to "/" |
| Auth.LogoutThenReloadIsSignedOut | src/context/AuthContext.tsx:96-102 | a reload after logout restores no user |
| Auth.UseAuth | src/context/AuthContext.tsx:119-125 | outside a provider the hook fails with "useAuth must be used within an AuthProvider"; inside one it returns the provider's view |
| Guard.Layout | src/components/Layout.tsx:16-33 | loading shows the placeholder; signed out redirects to "/"; the page renders iff signed in and, when a role is required, the user's role equals it |
| Guard.WrongRoleRedirectsHome | src/components/Layout.tsx:30-33 | a signed-in user with the wrong role is sent to "/hr-dashboard" if they are HR, else to "/dashboard" |
| Guard.GuardedRole | src/App.tsx:41-52 | only "/hr-dashboard" requires HR and only "/dashboard" requires an employee; every other route has no guard |
| Guard.RedirectTargetsAreGuarded | src/components/Layout.tsx:30-33 | every wrong-role redirect lands on one of the two guarded dashboards |
| Guard.NoRedirectLoop | src/components/Layout.tsx:31 | for roles "hr" and "employee", the page a wrong-role redirect reaches renders for that user |
| Guard.UnknownRoleLoops | src/pages/Dashboard.tsx:89 | a user whose role is neither "hr" nor "employee" is redirected from "/dashboard" back to "/dashboard" |
| Guard.SubPagesUnguarded | src/App.tsx:42-52 | the eight sub-pages carry no role guard |
| Guard.Index | src/pages/Index.tsx:15-17 | the start page shows the login form iff signed out, else goes to "/hr-dashboard" for HR and "/dashboard" for everyone else |
| Guard.HomePagesAgree | src/context/AuthContext.tsx:83-87 | after a login, the start page, the login navigation and the guard's redirects all name the same home page |
| Guard.IndexAgreesWithLayout | src/pages/Index.tsx:16 | the start page sends a signed-in user where the guard would redirect them |
| Guard.FirstRenderWaits | src/pages/Index.tsx:15-17 | before the stored session is restored a guarded page shows the loading state, while the start page already shows the login form |
| Sidebar.Links | src/components/Sidebar.tsx:51 | HR users get the HR links; everyone else, including nobody signed in, gets the employee links |
| Sidebar.EmployeeLinksWellFormed | src/components/Sidebar.tsx:35-41 | five employee links with distinct targets, all under "/dashboard" |
| Sidebar.HrLinksWellFormed | src/components/Sidebar.tsx:43-49 | five HR links with distinct targets, all under "/hr-dashboard" |
| Sidebar.AtMostOneActive | src/components/Sidebar.tsx:100 | in a list of distinct targets at most one link is highlighted |
| Sidebar.SidebarHighlightsAtMostOne | src/components/Sidebar.tsx:95-100 | the sidebar never highlights two links |
| Sidebar.SidebarAgreesWithIndex | src/components/Sidebar.tsx:35-51 | for a signed-in user the first sidebar link is the start page's destination and every link lies below it |
| Sidebar.RoleLabel | src/components/Sidebar.tsx:86 | "HR Admin" iff the role is "hr", else "Employee" |
| Text.IncludesIsInfix | src/components/EmployeeManagement.tsx:346-348 | the executable substring test agrees with the definition "occurs at some offset" |
| Text.ContainsIgnoringCaseMeaning | src/components/PayrollSystem.tsx:205-207 | the screens' search test holds iff the lower-cased term occurs in the lower-cased text |
| Text.BlankIffAllSpace | src/components/JobRoles.tsx:139 | a string is blank after `trim` iff it consists of white space only |
| Text.Trim | src/components/LeaveManagement.tsx:230 | the trimmed string is the part of the input between a white-space prefix and a white-space suffix, and neither starts nor ends with white space |
| Seqs.Filter | src/components/PayrollSystem.tsx:203-213 | the result keeps exactly the elements that pass the test, in their original order |
| Seqs.FilterMultiset | src/components/PayrollSystem.tsx:203-213 | every occurrence of a passing element is kept and no occurrence of a failing one |
| Seqs.FilterLengthCountsPositions | src/components/LeaveManagement.tsx:159-172 | a filtered list's length counts the positions whose element passes |
| Seqs.SortBy | src/components/DepartmentWork.tsx:371-372 | the result is a permutation of the input, in ascending key order |
| Seqs.FindIndex | src/components/AttendanceSystem.tsx:89-93 | the index found is the first whose element passes; None iff no element passes |
| Seqs.Find | src/pages/Dashboard.tsx:59-63 | None iff no element passes; otherwise the first passing element |
| Http.Classify | src/components/EmployeeManagement.tsx:163-177 | no token means nothing is sent; an expired session is exactly a 401 with a JSON body on a screen that handles it; success is exactly a 2xx reply |
| Http.Settle | src/components/LeaveManagement.tsx:208-226 | success applies the change, toasts and reloads; an expired session drops the token and goes to "/login"; anything else only shows an error |
| Http.OpenScreen | src/components/LeaveManagement.tsx:84-92 | without a token the screen shows an error, goes to "/login" and loads nothing |
| Employees.DepartmentName | src/components/EmployeeManagement.tsx:145-147 | the department's name, or "Unknown Department" when the employee has no department or its name is empty |
| Employees.MatchesSearchMeaning | src/components/EmployeeManagement.tsx:345-348 | an employee matches iff the term is empty or name, email or phone contains it, whatever its case |
| Employees.FilteredEmployees | src/components/EmployeeManagement.tsx:344-353 | keeps exactly the employees matching the search and the department filter, in order; an employee without a department matches only "all"; default filters show everyone |
| Employees.AsWrittenThrowsOnMissingDepartment | src/components/EmployeeManagement.tsx:350 | the filter as written fails iff a department is selected and some employee has no department |
| Employees.AsWrittenAgreesWhenItRenders | src/components/EmployeeManagement.tsx:344-353 | whenever the filter as written does not fail, it agrees with the corrected filter |
| Employees.MissingDepartmentCounterexample | src/components/EmployeeManagement.tsx:350 | one employee without a department and a selected department make the filter as written fail |
| Employees.FetchEmployees | src/components/EmployeeManagement.tsx:149-184 | a list reply replaces the list; a 401 with a JSON body drops the token and goes to "/login"; any other failure keeps the list and shows an error |
| Employees.AddEmployee | src/components/EmployeeManagement.tsx:186-248 | non-HR users are refused with an error before anything is sent; success resets the form to blank. A 401 with a JSON body drops the token and goes to "/login" without a toast; success shows a toast and reloads the list; any other failure shows an error toast. |
| Employees.DeleteEmployee | src/components/EmployeeManagement.tsx:300-341 | without a selection nothing happens; a non-HR user is refused with an error; success clears the selection. A 401 with a JSON body drops the token and goes to "/login" without a toast; success shows a toast and reloads the list; any other failure shows an error toast. |
| Employees.SaveEdit | src/components/EmployeeManagement.tsx:250-298 | the token is checked first (an error when missing), then the selection; success clears the selection. A 401 with a JSON body drops the token and goes to "/login" without a toast; success shows a toast and reloads the list; any other failure shows an error toast. |
| Employees.SaveEditIgnoresRole | src/components/EmployeeManagement.tsx:250-298 | saving an edit never looks at the user's role |
| Employees.OnlyEditSkipsTheRoleCheck | src/components/EmployeeManagement.tsx:189-192 | a signed-in non-HR user can send an edit but not an add or a delete |
| Payroll.FilteredPayroll | src/components/PayrollSystem.tsx:203-213 | keeps exactly the entries matching name, employee id or position, the department ("All" matches any) and the status (case-insensitive, "all" matches any), in order |
| Payroll.DefaultFiltersShowAll | src/components/PayrollSystem.tsx:203-213 | an empty search with both filters on "all" shows every entry |
| Payroll.EmptySearchKeepsEverything | src/components/PayrollSystem.tsx:204-207 | the empty search term matches every entry |
| Payroll.ReduceIsAccPlusTotal | src/components/PayrollSystem.tsx:633 | the left fold of the footer adds the net salaries to its start value |
| Payroll.FooterTotal | src/components/PayrollSystem.tsx:633 | the footer shows the sum of the net salaries of exactly the filtered entries |
| Payroll.TotalSplits | src/components/PayrollSystem.tsx:633 | the totals of a filter and of its complement add up to the whole total |
| Payroll.FooterAtMostTotal | src/components/PayrollSystem.tsx:633 | with non-negative salaries the footer never exceeds the total of all entries |
| Payroll.ProgressTick | src/components/PayrollSystem.tsx:186-194 | at 100 or more the updater stops at 100 and signals completion; below it adds 20 |
| Payroll.ProgressIsCapped | src/components/PayrollSystem.tsx:186-194 | after n ticks from 0 the bar shows min(20n, 100) and never leaves 0..100 |
| Payroll.FullAfterFiveTicks | src/components/PayrollSystem.tsx:186-194 | the bar is full exactly after five ticks, and the completion signal fires on the sixth tick and every later one |
| Payroll.EntryActions | src/components/PayrollSystem.tsx:592-620 | "Process Payment" is offered only for a pending entry and "Download Slip" only for a processed one, never both |
| Payroll.MockPayrollConsistent | src/components/PayrollSystem.tsx:38-123 | every sample entry's net equals salary plus bonus minus deductions; the sample total is 628000 |
| Recruitment.FilteredApplications | src/components/RecruitmentPanel.tsx:198-207 | keeps exactly the applications whose name, position or email contains the term and whose status matches, in order |
| Recruitment.StatusFilterIgnoresCase | src/components/RecruitmentPanel.tsx:204 | two status filters that differ only in case show the same applications |
| Recruitment.Badge | src/components/RecruitmentPanel.tsx:384-390 | blue iff "New", purple iff "Interview", red for every other status |
| Recruitment.DetailDialog | src/components/RecruitmentPanel.tsx:455-505 | scheduling only for "New"; the interview date only for "Interview" with a date; the reason only for "Rejected" with a reason; reject/accept for anything but "Rejected" |
| LeaveManagement.Reshape | src/components/LeaveManagement.tsx:127-151 | the reshaped list fails iff some request has no employee; otherwise it keeps every request and its employee in order, changing only a missing or empty position to "N/A" |
| LeaveManagement.ComputeStats | src/components/LeaveManagement.tsx:159-176 | each card counts the requests that are pending, approved and starting today, or created this month, and none exceeds the number of requests |
| LeaveManagement.AbsencesAreNotPending | src/components/LeaveManagement.tsx:159-168 | today's absences plus pending requests never exceed the number of requests |
| LeaveManagement.FetchLeaveRequests | src/components/LeaveManagement.tsx:94-185 | the list and statistics change only on a 2xx list reply that reshapes, and then the statistics are those of the new list; a 401 with a JSON body drops the token and goes to "/login" silently; a missing token, any other rejection, a body without a list or a request without an employee shows an error toast; it never asks for a reload |
| LeaveManagement.FilteredLeaveRequests | src/components/LeaveManagement.tsx:277-289 | keeps exactly the requests that have an employee and match the search, department and status filters, in order |
| LeaveManagement.EmptyTermFindsEveryRequest | src/components/LeaveManagement.tsx:280-284 | the empty search term matches every request that has an employee |
| LeaveManagement.MissingFieldsSearchAsEmpty | src/components/LeaveManagement.tsx:280-284 | a missing name, employee id or reason searches exactly as the empty string, for every term |
| LeaveManagement.LoadedListShownInFull | src/components/LeaveManagement.tsx:278 | after a successful load the default filters show every request, so the null check never drops one |
| LeaveManagement.Approve | src/components/LeaveManagement.tsx:187-227 | without a selection nothing is sent and no toast shown; success clears the selection. A 401 with a JSON body drops the token and goes to "/login" without a toast; success shows a toast and reloads the list; any other failure shows an error toast. |
| LeaveManagement.Reject | src/components/LeaveManagement.tsx:229-274 | no selection or a blank reason is refused with an error before anything is sent; success clears both. A 401 with a JSON body drops the token and goes to "/login" without a toast; success shows a toast and reloads the list; any other failure shows an error toast. |
| LeaveManagement.WhiteSpaceReasonRefused | src/components/LeaveManagement.tsx:230 | a reason of white space only is never sent |
| LeaveManagement.ShowsDecision | src/components/LeaveManagement.tsx:538 | approve and reject are offered iff the selected request is pending in the sense the "pending" card counts |
| LeaveManagement.DecisionsAreCountedPending | src/components/LeaveManagement.tsx:159-175 | a request offered for a decision is among those the "pending" card counts, so that card is not zero |
| LeaveManagement.DecidedRequestLeavesDialog | src/components/LeaveManagement.tsx:187-267 | once the server accepts an approval, or a rejection with a non-blank reason, the selection is cleared and no decision is offered |
| LeaveManagement.StatusLabel | src/components/LeaveManagement.tsx:446 | a missing or empty status reads "Pending"; otherwise the status with its first letter upper-cased |
| LeaveManagement.StatusBadge | src/components/LeaveManagement.tsx:439-445 | green iff approved, red iff rejected, orange otherwise |
| LeaveRequests.Submit | src/components/LeaveRequests.tsx:87-147 | an empty field is refused before anything is sent; success clears all four fields and reloads; any failure keeps the fields; the submit flag is off afterwards |
| LeaveRequests.SubmitChecksOnlyEmptiness | src/components/LeaveRequests.tsx:91-95 | a reason of one space and an end date before the start date both pass: there is no trim and no date-order check |
| LeaveRequests.SubmitKeepsSessionOn401 | src/components/LeaveRequests.tsx:125-128 | a 401 is an ordinary error here: the token stays and nothing navigates |
| LeaveRequests.FetchHistory | src/components/LeaveRequests.tsx:59-85 | a 2xx reply replaces the history with its `data` field; a failure keeps it and shows an error |
| LeaveRequests.ButtonLabel | src/components/LeaveRequests.tsx:237-238 | the button reads "Submitting..." exactly while a request is in flight |
| LeaveRequests.StatusBadge | src/components/LeaveRequests.tsx:313-319 | green iff approved, yellow iff pending, red otherwise |
| LeaveRequests.StatusLabel | src/components/LeaveRequests.tsx:320 | the status with its first letter upper-cased and the rest unchanged; an empty status stays empty |
| Attendance.TodayRecord | src/components/AttendanceSystem.tsx:89-93 | today's record is the first record of the day in the history, or none when no record has that day |
| Attendance.FormatTime | src/components/AttendanceSystem.tsx:25-33 | an empty time is shown as a dash, any other as a clock time |
| Attendance.ApplyToday | src/components/AttendanceSystem.tsx:56-68 | a check-in time in today's record sets `checkedIn`, a check-out time sets `checkedOut`, and neither flag is ever cleared |
| Attendance.Step | src/components/AttendanceSystem.tsx:70-168 | no event clears a flag; a press only raises the busy flag, and only when its button is enabled; a reply with data sets its flag and shows its time, any other reply only ends the busy state; a history list is stored and today's first record in it adopted, a body without a list leaves no history, a failed load changes nothing; the reload a recorded reply triggers is `Attendance.StepReloads` |
| Attendance.StepNotice | src/components/AttendanceSystem.tsx:98-100 | loading is silent iff a list arrives; a check-in or check-out toasts success iff its reply carries data |
| Attendance.StepReloads | src/components/AttendanceSystem.tsx:124-128 | the history is reloaded after a check-in or check-out reply that carries data, and after no other event: exactly when the success toast shows |
| Attendance.FlagsOnlyRise | src/components/AttendanceSystem.tsx:42-43 | across any sequence of events the flags only move from false to true |
| Attendance.CheckInStaysDisabled | src/components/AttendanceSystem.tsx:229 | once checked in, check-in stays disabled whatever happens |
| Attendance.ButtonsAreExclusive | src/components/AttendanceSystem.tsx:194-239 | check-in is disabled iff checked in or busy; check-out is enabled iff checked in, not checked out and not busy; never both enabled; "Completed" shows only when neither is |
| Attendance.CheckedInRecordEnablesCheckOut | src/components/AttendanceSystem.tsx:58-62 | a today-record with a check-in and no check-out leaves the screen checked in, with check-out enabled and check-in disabled |
| Attendance.FreshScreenExample | src/components/AttendanceSystem.tsx:84-97 | a concrete two-day history marks a fresh screen checked in at today's time |
| Dashboard.FetchToday | src/pages/Dashboard.tsx:37-72 | a list reply sets today's record to the first of the day or to none; a failure keeps the previous one; loading ends either way |
| Dashboard.Status | src/pages/Dashboard.tsx:74-79 | "Not Checked In" iff no record, "Present" iff checked in and not out, "Completed" iff both, "Absent" iff no check-in |
| Dashboard.StatusText | src/pages/Dashboard.tsx:74-79 | each of the four day statuses has its own label |
| Dashboard.StatusColor | src/pages/Dashboard.tsx:81-86 | gray, green, blue and red stand for exactly one day status each |
| Dashboard.TextAndColourAgree | src/pages/Dashboard.tsx:74-86 | gray goes with "Not Checked In", green with "Present", blue with "Completed" and red with "Absent"; the four states have four different texts and colours |
| Dashboard.DashboardAgreesWithAttendance | src/pages/Dashboard.tsx:74-79 | for the same record, "Present" is exactly when the attendance screen offers check-out, "Completed" when it shows the mark, "Absent" when it offers check-in |
| Dashboard.NoRecordMeansNotCheckedIn | src/pages/Dashboard.tsx:75 | with no record for today the dashboard reads "Not Checked In" and the attendance screen offers check-in |
| DepartmentWork.MockTasksAreConsistent | src/components/DepartmentWork.tsx:39-98 | the sample active tasks are below 100% and the completed ones at 100% |
| DepartmentWork.FilteredTasks | src/components/DepartmentWork.tsx:130-138 | keeps exactly the tasks whose title or description contains the term, whatever its case, in order; an empty term keeps all |
| DepartmentWork.DisplayDate | src/components/DepartmentWork.tsx:140-145 | the due day for an active task, the completion day otherwise |
| DepartmentWork.Deadlines | src/components/DepartmentWork.tsx:371-372 | the deadline list is a permutation of the filtered tasks, earliest due day first |
| DepartmentWork.MockDeadlineOrder | src/components/DepartmentWork.tsx:64-72 | with the sample tasks the payment-module review comes first |
| DepartmentWork.PriorityTone | src/components/DepartmentWork.tsx:379-385 | red iff High, orange iff Medium, blue otherwise |
| DepartmentWork.OpenTask | src/components/DepartmentWork.tsx:208-211 | opening a task loads its progress into the slider and keeps the comment typed before |
| DepartmentWork.SetProgress | src/components/DepartmentWork.tsx:266-272 | moving the slider (whose values run from 0 to 100) sets the progress and leaves the selected task and the comment alone |
| DepartmentWork.Footer | src/components/DepartmentWork.tsx:292-296 | "Submit Update" iff the slider is below 100, else "Mark as Complete" |
| DepartmentWork.TaskUpdate | src/components/DepartmentWork.tsx:116-124 | a blank comment is refused and kept; otherwise it is cleared with a success toast |
| DepartmentWork.WhiteSpaceCommentRefused | src/components/DepartmentWork.tsx:117 | a comment of white space only is refused |
| DepartmentWork.TaskSubmit | src/components/DepartmentWork.tsx:126-128 | marking complete only shows a toast and changes no state |
| DepartmentWork.MockTasksOpenForUpdate | src/components/DepartmentWork.tsx:292-296 | every sample active task opens with "Submit Update" |
| JobRoles.FilteredJobs | src/components/JobRoles.tsx:148-152 | keeps exactly the openings whose title, department or location contains the term, whatever its case, in order |
| JobRoles.SearchIgnoresCase | src/components/JobRoles.tsx:148-152 | a term and its lower-case form find the same openings |
| JobRoles.EmptySearchShowsAll | src/components/JobRoles.tsx:148-152 | an empty search shows every opening |
| JobRoles.AppliedMessage | src/components/JobRoles.tsx:144 | the toast names the selected opening, or "undefined" without one |
| JobRoles.Apply | src/components/JobRoles.tsx:138-146 | a blank cover letter is refused and kept; otherwise it is cleared with a success toast, without checking the selection |
| JobRoles.ApplyAcceptsAnyNonBlankLetter | src/components/JobRoles.tsx:139-145 | any letter with a character outside white space is accepted and cleared |
| JobRoles.ApplicationTone | src/components/JobRoles.tsx:310-313 | blue iff the status is "Interview Scheduled", orange otherwise |
| JobRoles.ShowsInterviewNote | src/components/JobRoles.tsx:318 | the interview note shows iff the application has a non-empty interview date |
| JobRoles.MockNotesFollowStatus | src/components/JobRoles.tsx:106-122 | in the sample applications the note shows exactly for the scheduled interview |

## Left out

- Network, timers, clocks and React rendering are outside the model. A reply
  is a parameter; "today" is a `Date` parameter; the effects of a handler are
  values in its `Outcome`, not performed.
- The handlers' busy flags (`isActionLoading`, `isLoading`) are not modelled
  on the HR screens. They are set and cleared around each request and never
  gate a decision the model makes.
- Date parsing and locale formatting (`new Date`, `toLocaleDateString`,
  `toLocaleTimeString`, `Intl.NumberFormat`). A date is `Date(year, month,
  day)`, or None when it does not parse. The department-work days are
  yyyymmdd numbers. The UTC date in the attendance header is not related to
  the local-midnight matching.
- `Attendance.FormatTime`: a non-empty time is shown as `TimeOf(stamp)`, not
  as the locale's clock text. A timestamp that does not parse, which renders
  "Invalid Date", is not distinguished.
- `toLowerCase`/`toUpperCase` are modelled on ASCII letters only. Strings are
  sequences of characters, not UTF-16 code units.
- JSON serialisation of the stored user is abstracted: the stored user is an
  `Option<User>`, and a corrupt stored value (which makes `JSON.parse` throw)
  is not modelled.
- Error message texts of failed requests are left out. A toast is only
  `NoToast`, `SuccessToast` or `ErrorToast`. The fixed messages the model
  does pin down are the `useAuth` error and the job-application toast.
- The floating-point net-salary split in the payroll screen's detail view is
  left out. Salaries are integers.
- `Seqs.SortBy`: it is proved to be a sorted permutation, but not to be
  stable, although JavaScript's sort is.
- The static numbers on `src/pages/HRDashboard.tsx`, the login form
  (`LoginForm.tsx`) and `DepartmentSummary.tsx` are not part of this model.
  Of the route table in `src/App.tsx` only which page asks for which role
  (`Guard.GuardedRole`) and the list of sub-pages are modelled.
- The payroll, recruitment, department-work and job-role screens work on
  sample data. Their "process", "schedule", "accept" and "reject" buttons only
  show toasts. Of these, only the task update, task complete and job apply
  handlers are modelled.
- A 2xx reply whose body is not JSON matters only to the handlers that parse
  a success body: the list fetches, check-in and check-out, login and the
  leave submission. There it throws and ends in the error path. The leave
  submission models it as `Answered(false)`; the other handlers have no
  separate reply for it, and it is passed as `NetworkError`, which they treat
  the same way. The add, edit and delete handlers and the
  approve and reject handlers never read a success body, so for them any 2xx
  reply is a success (`Answered`).
- On the employee's leave screen, a history reply without a `data` list
  stores nothing usable (`None`). The history table would then fail to
  render; that render failure is not modelled.
- Employees.SaveEdit: the request body reads `selectedEmployee.department._id`
  (`src/components/EmployeeManagement.tsx:271`), which would throw for an
  employee without a department. The edit dialog reads the same field when it
  renders (`src/components/EmployeeManagement.tsx:719`), so for such an
  employee the screen fails before Save can be pressed; the model does not
  add that error path to the save handler.
- Concurrent requests and out-of-order replies are not modelled, except in
  the attendance screen. There, presses and replies are separate events that
  may interleave in any order.

## Findings

| source | as written | input that shows it | evidently intended | confidence | as-written member | corrected member |
|---|---|---|---|---|---|---|
| src/components/EmployeeManagement.tsx:350 | the department filter reads `employee.department._id` without optional chaining, although line 146 guards the same field | a department is selected and the list holds an employee whose `department` is missing: the filter throws and the screen fails to render | an employee without a department simply does not match a selected department | not executed | Employees.FilteredEmployeesAsWritten, Employees.AsWrittenThrowsOnMissingDepartment, Employees.MissingDepartmentCounterexample | Employees.FilteredEmployees |

=== FILE: attendance.dfy ===
/** The employee's attendance screen (`AttendanceSystem`): today's record,
    the check-in / check-out flags and the two buttons. */
module Attendance {
  import opened Wrappers
  import opened Effects
  import opened Http
  import opened Seqs

  /** One day's attendance. `date` is None when it does not parse; an empty
      time means the event has not happened. */
  datatype AttendanceRecord = AttendanceRecord(date: Option<Date>, checkInTime: string, checkOutTime: string, status: string)

  /** The record of the given local day. */
  function OnDay(day: Date): AttendanceRecord -> bool {
    (r: AttendanceRecord) => r.date == Some(day)
  }

  /** The first record of the day, as the screen and the dashboard both
      search for it. */
  function TodayRecord(history: seq<AttendanceRecord>, day: Date): (r: Option<AttendanceRecord>)
    ensures r.Some? ==> r.value in history && r.value.date == Some(day)
    ensures r.Some? ==> exists i :: (0 <= i < |history| && history[i] == r.value
                                     && forall j :: 0 <= j < i ==> history[j].date != Some(day))
    ensures r.None? <==> forall i :: 0 <= i < |history| ==> history[i].date != Some(day)
  {
    match FindIndex(history, OnDay(day))
    case None => None
    case Some(i) => Some(history[i])
  }

  /** A time as displayed: nothing yet, the dash `formatTime` shows for an
      empty time, or the local rendering of a timestamp. */
  datatype TimeText = NotShown | Dash | TimeOf(stamp: string)

  /** `formatTime`: an empty time renders as a dash. */
  function FormatTime(s: string): (t: TimeText)
    ensures t == Dash <==> s == ""
    ensures t != NotShown
  {
    if s == "" then Dash else TimeOf(s)
  }

  /** The screen's state. `history` is None once a reply without a list has
      been stored. */
  datatype Screen = Screen(
    checkedIn: bool, checkedOut: bool, checkInTime: TimeText, checkOutTime: TimeText,
    history: Option<seq<AttendanceRecord>>, isLoading: bool, today: Option<AttendanceRecord>)

  const Initial := Screen(false, false, NotShown, NotShown, Some([]), false, None)

  /** The effect that runs when today's record changes: a check-in time sets
      `checkedIn`, a check-out time sets `checkedOut`; neither is ever
      cleared. */
  function ApplyToday(s: Screen): (r: Screen)
    ensures r.checkedIn <==> s.checkedIn || (s.today.Some? && s.today.value.checkInTime != "")
    ensures r.checkedOut <==> s.checkedOut || (s.today.Some? && s.today.value.checkOutTime != "")
    ensures r.history == s.history && r.isLoading == s.isLoading && r.today == s.today
  {
    match s.today
    case None => s
    case Some(rec) =>
      var s1 := if rec.checkInTime != "" then s.(checkedIn := true, checkInTime := FormatTime(rec.checkInTime)) else s;
      if rec.checkOutTime != "" then s1.(checkedOut := true, checkOutTime := FormatTime(rec.checkOutTime)) else s1
  }

  /** What can happen to the screen. A button press starts a request (and
      is ignored while the button is disabled); its reply arrives later. The
      check-in and check-out replies carry the `data` object's time, or None
      when the body has no `data`. */
  datatype Event =
    | HistoryArrived(reply: Reply<ListBody<AttendanceRecord>>, day: Date)
    | PressCheckIn
    | CheckInReply(result: Reply<Option<string>>)
    | PressCheckOut
    | CheckOutReply(result: Reply<Option<string>>)

  predicate CheckInEnabled(s: Screen) {
    !(s.checkedIn || s.isLoading)
  }

  predicate CheckOutEnabled(s: Screen) {
    !(!s.checkedIn || s.checkedOut || s.isLoading)
  }

  /** The "Completed" mark next to the date. */
  predicate ShowsCompleted(s: Screen) {
    s.checkedIn && s.checkedOut
  }

  /** The attendance requests do not read the session at all: they are sent
      with whatever token is stored, so a reply is handled the same way with
      or without one. */
  function Step(s: Screen, e: Event): (r: Screen)
    ensures s.checkedIn ==> r.checkedIn
    ensures s.checkedOut ==> r.checkedOut
    ensures e.PressCheckIn? || e.PressCheckOut? ==> r.checkedIn == s.checkedIn && r.checkedOut == s.checkedOut
    ensures e.CheckInReply? || e.CheckOutReply? ==> !r.isLoading
    // A press starts a request only when its button is enabled, and then
    // only raises the busy flag.
    ensures e.PressCheckIn? || e.PressCheckOut? ==> r.(isLoading := s.isLoading) == s
    ensures e.PressCheckIn? ==> (r.isLoading <==> s.isLoading || CheckInEnabled(s))
    ensures e.PressCheckOut? ==> (r.isLoading <==> s.isLoading || CheckOutEnabled(s))
    // A reply with data records the time and sets the flag; any other reply
    // only ends the busy state.
    ensures e.CheckInReply? && e.result.Answered? && e.result.body.Some? ==>
      r.checkedIn && r.checkInTime == FormatTime(e.result.body.value)
      && r.(checkedIn := s.checkedIn, checkInTime := s.checkInTime, isLoading := s.isLoading) == s
    ensures e.CheckOutReply? && e.result.Answered? && e.result.body.Some? ==>
      r.checkedOut && r.checkOutTime == FormatTime(e.result.body.value)
      && r.(checkedOut := s.checkedOut, checkOutTime := s.checkOutTime, isLoading := s.isLoading) == s
    ensures (e.CheckInReply? || e.CheckOutReply?) && !(e.result.Answered? && e.result.body.Some?) ==>
      r == s.(isLoading := false)
    // A list stores the history and, when it holds today's record, adopts
    // it; a body without a list leaves no usable history; a failure changes
    // nothing.
    ensures e.HistoryArrived? && e.reply.Answered? && e.reply.body.Items? ==>
      var found := TodayRecord(e.reply.body.items, e.day);
      && r.history == Some(e.reply.body.items)
      && r.today == (if found.Some? then found else s.today)
      && r.isLoading == s.isLoading
      && (r.checkedIn <==> s.checkedIn || (found.Some? && found.value.checkInTime != ""))
      && (r.checkedOut <==> s.checkedOut || (found.Some? && found.value.checkOutTime != ""))
    ensures e.HistoryArrived? && e.reply.Answered? && e.reply.body.Malformed? ==> r == s.(history := None)
    ensures e.HistoryArrived? && !e.reply.Answered? ==> r == s
  {
    match e
    case HistoryArrived(reply, day) =>
      (match reply
       case Answered(Items(xs)) =>
         var found := TodayRecord(xs, day);
         var s1 := s.(history := Some(xs));
         if found.Some? then ApplyToday(s1.(today := found)) else s1
       case Answered(Malformed) => s.(history := None)
       case _ => s)
    case PressCheckIn => if CheckInEnabled(s) then s.(isLoading := true) else s
    case PressCheckOut => if CheckOutEnabled(s) then s.(isLoading := true) else s
    case CheckInReply(reply) =>
      if reply.Answered? && reply.body.Some? then
        s.(checkInTime := FormatTime(reply.body.value), checkedIn := true, isLoading := false)
      else s.(isLoading := false)
    case CheckOutReply(reply) =>
      if reply.Answered? && reply.body.Some? then
        s.(checkOutTime := FormatTime(reply.body.value), checkedOut := true, isLoading := false)
      else s.(isLoading := false)
  }

  /** The toast an event shows. Loading the history is silent unless it
      fails; a button press shows nothing. */
  function StepNotice(e: Event): (n: Notice)
    ensures e.PressCheckIn? || e.PressCheckOut? ==> n == NoToast
    ensures e.HistoryArrived? ==> (n == NoToast <==> e.reply.Answered? && e.reply.body.Items?)
    ensures e.CheckInReply? ==> (n == SuccessToast <==> e.result.Answered? && e.result.body.Some?)
    ensures e.CheckOutReply? ==> (n == SuccessToast <==> e.result.Answered? && e.result.body.Some?)
  {
    match e
    case HistoryArrived(reply, _) => if reply.Answered? && reply.body.Items? then NoToast else ErrorToast
    case PressCheckIn => NoToast
    case PressCheckOut => NoToast
    case CheckInReply(reply) => if reply.Answered? && reply.body.Some? then SuccessToast else ErrorToast
    case CheckOutReply(reply) => if reply.Answered? && reply.body.Some? then SuccessToast else ErrorToast
  }

  /** A recorded check-in or check-out reloads the history; nothing else
      does. The reload is exactly the one shown with a success toast. */
  function StepReloads(e: Event): (b: bool)
    ensures b <==> (e.CheckInReply? || e.CheckOutReply?) && e.result.Answered? && e.result.body.Some?
    ensures b <==> StepNotice(e) == SuccessToast
  {
    match e
    case CheckInReply(reply) => reply.Answered? && reply.body.Some?
    case CheckOutReply(reply) => reply.Answered? && reply.body.Some?
    case _ => false
  }

  function Run(s: Screen, events: seq<Event>): Screen
    decreases |events|
  {
    if |events| == 0 then s else Run(Step(s, events[0]), events[1..])
  }

  /** The flags only ever move from false to true, whatever happens. */
  lemma {:induction false} FlagsOnlyRise(s: Screen, events: seq<Event>)
    ensures s.checkedIn ==> Run(s, events).checkedIn
    ensures s.checkedOut ==> Run(s, events).checkedOut
    decreases |events|
  {
    if |events| > 0 {
      FlagsOnlyRise(Step(s, events[0]), events[1..]);
    }
  }

  /** Once checked in, the check-in button stays disabled. */
  lemma CheckInStaysDisabled(s: Screen, events: seq<Event>)
    requires s.checkedIn
    ensures !CheckInEnabled(Run(s, events))
  {
    FlagsOnlyRise(s, events);
  }

  /** Check-in is disabled iff checked in or busy; check-out is enabled iff
      checked in, not checked out and not busy; the two are never enabled
      together, and "Completed" shows exactly when both flags are set. */
  lemma ButtonsAreExclusive(s: Screen)
    ensures !CheckInEnabled(s) <==> s.checkedIn || s.isLoading
    ensures CheckOutEnabled(s) <==> s.checkedIn && !s.checkedOut && !s.isLoading
    ensures !(CheckInEnabled(s) && CheckOutEnabled(s))
    ensures ShowsCompleted(s) ==> !CheckInEnabled(s) && !CheckOutEnabled(s)
  {
  }

  /** A history holding today's record with a check-in and no check-out
      leaves the screen checked in: check-in disabled, check-out enabled. */
  lemma CheckedInRecordEnablesCheckOut(s: Screen, history: seq<AttendanceRecord>, day: Date)
    requires !s.checkedOut && !s.isLoading
    requires TodayRecord(history, day).Some?
    requires TodayRecord(history, day).value.checkInTime != ""
    requires TodayRecord(history, day).value.checkOutTime == ""
    ensures var r := Step(s, HistoryArrived(Answered(Items(history)), day));
            r.checkedIn && !CheckInEnabled(r) && CheckOutEnabled(r) && !ShowsCompleted(r)
  {
  }

  /** The same from a fresh screen, with a concrete history. */
  lemma FreshScreenExample()
    ensures var day := Date(2025, 5, 2);
            var history := [AttendanceRecord(Some(Date(2025, 5, 1)), "t1", "t2", "present"),
                            AttendanceRecord(Some(day), "t3", "", "present")];
            var r := Step(Initial, HistoryArrived(Answered(Items(history)), day));
            r.checkedIn && r.checkInTime == TimeOf("t3") && CheckOutEnabled(r) && !CheckInEnabled(r)
  {
    var day := Date(2025, 5, 2);
    var history := [AttendanceRecord(Some(Date(2025, 5, 1)), "t1", "t2", "present"),
                    AttendanceRecord(Some(day), "t3", "", "present")];
    assert TodayRecord(history, day) == Some(history[1]);
  }
}

=== FILE: auth.dfy ===
/** The session store (`AuthProvider`): the signed-in user, a loading flag
    and the two storage keys, with the transitions restore, login and
    logout. */
module Auth {
  import opened Wrappers
  import opened Effects

  datatype Session = Session(user: Option<User>, isLoading: bool, storage: Storage)

  /** What the provider hands to its consumers. */
  datatype AuthView = AuthView(user: Option<User>, isAuthenticated: bool, isLoading: bool)

  /** The provider's value; `isAuthenticated` is `!!user`. */
  function View(s: Session): (v: AuthView)
    ensures v.isAuthenticated <==> s.user.Some?
    ensures v.user == s.user && v.isLoading == s.isLoading
  {
    AuthView(s.user, s.user.Some?, s.isLoading)
  }

  /** The provider as first rendered: no user, loading. */
  function Mount(st: Storage): (r: Session)
    ensures r.user.None? && r.isLoading && r.storage == st
    ensures View(r) == AuthView(None, false, true)
  {
    Session(None, true, st)
  }

  /** The restore effect: adopt the stored user when both keys are stored,
      and stop loading in every case. The token is not checked with the
      server. */
  function Restore(s: Session): (r: Session)
    ensures !r.isLoading && r.storage == s.storage
    ensures s.storage.savedUser.Some? && HasToken(s.storage) ==> r.user == s.storage.savedUser
    ensures r.user != s.user ==> r.user == s.storage.savedUser && HasToken(s.storage)
  {
    if s.storage.savedUser.Some? && HasToken(s.storage)
    then s.(user := s.storage.savedUser, isLoading := false)
    else s.(isLoading := false)
  }

  /** After mounting and restoring, a user is signed in exactly when both
      keys were stored, and it is the stored one. */
  lemma RestoreAfterMount(st: Storage)
    ensures View(Restore(Mount(st))).isAuthenticated <==> st.savedUser.Some? && HasToken(st)
    ensures Restore(Mount(st)).user.Some? ==> Restore(Mount(st)).user == st.savedUser
    ensures !Restore(Mount(st)).isLoading
    ensures Restore(Mount(st)).storage == st
  {
  }

  /** The two requests of a login: credentials to `/login`, then the token to
      `/me`. Network errors and unparsable bodies end like refusals. */
  datatype LoginReply =
    | CredentialsRefused
    | ProfileRefused
    | Accepted(token: string, profile: User)

  /** A transition's result: the new session, where to navigate, which toast. */
  datatype Step = Step(session: Session, navigate: Option<string>, notice: Notice)

  /** `login` sets the loading flag before its first request. */
  function BeginLogin(s: Session): (r: Session)
    ensures r.isLoading && r.user == s.user && r.storage == s.storage
  {
    s.(isLoading := true)
  }

  /** `login` once the server has answered: on success adopt the `/me`
      profile, write both keys and go to the role's home page; on failure
      change nothing but the loading flag and show an error. */
  function FinishLogin(s: Session, reply: LoginReply): (r: Step)
    ensures !r.session.isLoading
    ensures reply.Accepted? ==> r.session.user == Some(reply.profile)
    ensures reply.Accepted? ==> r.session.storage == Storage(Some(reply.profile), Some(reply.token))
    ensures reply.Accepted? ==> r.notice == SuccessToast
    ensures reply.Accepted? ==>
      r.navigate == Some(if reply.profile.role == "hr" then "/hr-dashboard" else "/dashboard")
    ensures !reply.Accepted? ==>
      r.session.user == s.user && r.session.storage == s.storage
      && r.navigate.None? && r.notice == ErrorToast
  {
    match reply
    case Accepted(token, profile) =>
      var home := if profile.role == "hr" then "/hr-dashboard" else "/dashboard";
      Step(Session(Some(profile), false, Storage(Some(profile), Some(token))), Some(home), SuccessToast)
    case _ =>
      Step(s.(isLoading := false), None, ErrorToast)
  }

  /** `login(email, password, role)`: the credentials go to the server,
      whose answer is `reply`; `role` is accepted and never read. */
  function Login(s: Session, email: string, password: string, role: string, reply: LoginReply): (r: Step)
    ensures !r.session.isLoading
    ensures reply.Accepted? ==>
      r.session.user == Some(reply.profile)
      && r.session.storage == Storage(Some(reply.profile), Some(reply.token))
      && r.notice == SuccessToast
      && r.navigate == Some(if reply.profile.role == "hr" then "/hr-dashboard" else "/dashboard")
    ensures !reply.Accepted? ==>
      r.session.user == s.user && r.session.storage == s.storage
      && r.navigate.None? && r.notice == ErrorToast
  {
    FinishLogin(BeginLogin(s), reply)
  }

  /** The role chosen on the login form has no influence: the session's role
      comes from the server's profile. */
  lemma LoginIgnoresRole(s: Session, email: string, password: string, r1: string, r2: string, reply: LoginReply)
    ensures Login(s, email, password, r1, reply) == Login(s, email, password, r2, reply)
  {
  }

  /** A failed login leaves the user and both keys as they were. */
  lemma FailedLoginChangesNothing(s: Session, email: string, password: string, role: string, reply: LoginReply)
    requires !reply.Accepted?
    ensures Login(s, email, password, role, reply).session == s.(isLoading := false)
  {
  }

  /** After a successful login the guard sees an authenticated user whose
      role is the server's. */
  lemma LoginAuthenticates(s: Session, email: string, password: string, role: string, token: string, profile: User)
    ensures View(Login(s, email, password, role, Accepted(token, profile)).session).isAuthenticated
    ensures Login(s, email, password, role, Accepted(token, profile)).session.user.value.role == profile.role
  {
  }

  /** A stored session written by a successful login is restored on the next
      page load, provided the token is not empty. */
  lemma LoginThenReloadRestores(s: Session, email: string, password: string, role: string, token: string, profile: User)
    requires token != ""
    ensures Restore(Mount(Login(s, email, password, role, Accepted(token, profile)).session.storage)).user
            == Some(profile)
  {
  }

  /** `logout`: forget the user, remove both keys, go to "/". */
  function Logout(s: Session): (r: Step)
    ensures r.session.user.None? && !View(r.session).isAuthenticated
    ensures r.session.storage == Storage(None, None)
    ensures r.session.isLoading == s.isLoading
    ensures r.navigate == Some("/") && r.notice == SuccessToast
  {
    Step(Session(None, s.isLoading, Storage(None, None)), Some("/"), SuccessToast)
  }

  /** After logging out, a reload restores nobody. */
  lemma LogoutThenReloadIsSignedOut(s: Session)
    ensures Restore(Mount(Logout(s).session.storage)).user.None?
  {
  }

  /** `useAuth()`: the provider's value, or the error thrown outside one. */
  function UseAuth(provider: Option<Session>): (r: Result<AuthView, string>)
    ensures provider.None? <==> r.Failure?
    ensures r.Failure? ==> r.error == "useAuth must be used within an AuthProvider"
    ensures provider.Some? ==> r == Success(View(provider.value))
  {
    match provider
    case None => Failure("useAuth must be used within an AuthProvider")
    case Some(s) => Success(View(s))
  }
}

=== FILE: dashboard.dfy ===
/** The employee dashboard (`Dashboard`): today's attendance and the status
    it shows. */
module Dashboard {
  import opened Wrappers
  import opened Effects
  import opened Http
  import opened Ui
  import opened Attendance

  /** Today's record and the loading flag, which starts true. */
  datatype DashboardState = DashboardState(today: Option<AttendanceRecord>, isLoading: bool)

  const Initial := DashboardState(None, true)

  /** `fetchTodayAttendance`: without a token nothing is sent. A list reply
      replaces today's record with the first record of the day, or with
      nothing when there is none; any failure keeps the previous record and
      shows an error. Loading ends either way. */
  function FetchToday(d: DashboardState, st: Storage, reply: Reply<ListBody<AttendanceRecord>>, day: Date)
    : (r: Outcome<DashboardState>)
    ensures !r.state.isLoading
    ensures r.sent <==> HasToken(st)
    ensures HasToken(st) && reply.Answered? && reply.body.Items? ==>
      r.state.today == TodayRecord(reply.body.items, day) && r.notice == NoToast
    ensures !(HasToken(st) && reply.Answered? && reply.body.Items?) ==>
      r.state.today == d.today && r.notice == ErrorToast
    ensures r.storage == st && r.navigate.None?
  {
    var c := Classify(st, reply, false);
    if c.Done? && c.body.Items? then
      Outcome(DashboardState(TodayRecord(c.body.items, day), false), true, st, None, NoToast, false)
    else Outcome(d.(isLoading := false), Sent(c), st, None, ErrorToast, false)
  }

  /** The four states of the day, in the order `getStatusText` tests
      them. */
  datatype DayStatus = NotCheckedIn | Present | Completed | Absent

  function Status(today: Option<AttendanceRecord>): (s: DayStatus)
    ensures s == NotCheckedIn <==> today.None?
    ensures s == Present <==> today.Some? && today.value.checkInTime != "" && today.value.checkOutTime == ""
    ensures s == Completed <==> today.Some? && today.value.checkInTime != "" && today.value.checkOutTime != ""
    ensures s == Absent <==> today.Some? && today.value.checkInTime == ""
  {
    if today.None? then NotCheckedIn
    else if today.value.checkInTime != "" && today.value.checkOutTime == "" then Present
    else if today.value.checkInTime != "" && today.value.checkOutTime != "" then Completed
    else Absent
  }

  /** `getStatusText`: one label per status. */
  function StatusText(s: DayStatus): (t: string)
    ensures t == "Not Checked In" <==> s == NotCheckedIn
    ensures t == "Present" <==> s == Present
    ensures t == "Completed" <==> s == Completed
    ensures t == "Absent" <==> s == Absent
  {
    match s
    case NotCheckedIn => "Not Checked In"
    case Present => "Present"
    case Completed => "Completed"
    case Absent => "Absent"
  }

  /** `getStatusColor` follows the same case split as the text. */
  function StatusColor(s: DayStatus): (c: Tone)
    ensures c == Gray <==> s == NotCheckedIn
    ensures c == Green <==> s == Present
    ensures c == Blue <==> s == Completed
    ensures c == Red <==> s == Absent
  {
    match s
    case NotCheckedIn => Gray
    case Present => Green
    case Completed => Blue
    case Absent => Red
  }

  /** The colour follows the text's case split: gray for "Not Checked In",
      green for "Present", blue for "Completed", red for "Absent"; each
      status has its own text and its own colour. */
  lemma TextAndColourAgree(a: DayStatus, b: DayStatus)
    ensures StatusColor(a) == Gray <==> StatusText(a) == "Not Checked In"
    ensures StatusColor(a) == Green <==> StatusText(a) == "Present"
    ensures StatusColor(a) == Blue <==> StatusText(a) == "Completed"
    ensures StatusColor(a) == Red <==> StatusText(a) == "Absent"
    ensures StatusText(a) == StatusText(b) <==> a == b
    ensures StatusColor(a) == StatusColor(b) <==> a == b
  {
  }

  /** The dashboard and the attendance screen read today's record the same
      way: on a fresh attendance screen, the record leaves "Present" exactly
      when only check-out is enabled, "Completed" exactly when the
      "Completed" mark shows, and "Absent" exactly when check-in is still
      possible. */
  lemma DashboardAgreesWithAttendance(history: seq<AttendanceRecord>, day: Date)
    requires TodayRecord(history, day).Some?
    ensures var s := Step(Attendance.Initial, HistoryArrived(Answered(Items(history)), day));
            var status := Status(TodayRecord(history, day));
            && (status == Present <==> CheckOutEnabled(s))
            && (status == Completed <==> ShowsCompleted(s))
            && (status == Absent <==> CheckInEnabled(s))
  {
  }

  /** With no record for the day, the dashboard says "Not Checked In" and the
      attendance screen offers check-in. */
  lemma NoRecordMeansNotCheckedIn(history: seq<AttendanceRecord>, day: Date)
    requires TodayRecord(history, day).None?
    ensures StatusText(Status(TodayRecord(history, day))) == "Not Checked In"
    ensures CheckInEnabled(Step(Attendance.Initial, HistoryArrived(Answered(Items(history)), day)))
  {
  }
}

=== FILE: department_work.dfy ===
/** The employee's task board (`DepartmentWork`): the mock task lists, the
    search, the deadline list and the task-update dialog. Nothing here talks
    to the backend. */
module DepartmentWork {
  import opened Wrappers
  import opened Effects
  import opened Text
  import opened Seqs
  import opened Ui

  /** An active task carries a due day, a finished one the day it was
      completed. Days are numbers that order like the dates (yyyymmdd). */
  datatype TaskKind = Active(dueDate: int) | Finished(completedDate: int)

  datatype Task = Task(
    id: string, title: string, description: string, priority: string, status: string,
    progress: int, assignedBy: string, department: string, kind: TaskKind)

  const MockTasks: seq<Task> := [
    Task("1", "Update CSS for the login page",
         "Fix responsiveness issues on mobile devices and ensure consistent styling with brand guidelines.",
         "High", "In Progress", 60, "Sarah Johnson", "Engineering", Active(20250425)),
    Task("2", "Create user documentation for the new feature",
         "Document the steps to use the new analytics dashboard for the users.",
         "Medium", "Not Started", 0, "Michael Brown", "Engineering", Active(20250430)),
    Task("3", "Peer review code for the payment module",
         "Review the pull request #345 for the new payment gateway integration.",
         "High", "In Progress", 25, "David Lee", "Engineering", Active(20250422))
  ]

  const MockCompletedTasks: seq<Task> := [
    Task("4", "Implement user authentication",
         "Set up JWT-based authentication flow for the application.",
         "High", "Completed", 100, "David Lee", "Engineering", Finished(20250412)),
    Task("5", "Fix navigation bug on Safari",
         "Address the dropdown menu not working correctly on Safari browsers.",
         "Medium", "Completed", 100, "Sarah Johnson", "Engineering", Finished(20250410))
  ]

  /** The mock active tasks are unfinished and the completed ones are at
      100%. */
  lemma MockTasksAreConsistent()
    ensures forall t :: t in MockTasks ==> t.kind.Active? && 0 <= t.progress < 100
    ensures forall t :: t in MockCompletedTasks ==> t.kind.Finished? && t.progress == 100
  {
  }

  // ---------------------------------------------------------------------------
  // Search and deadlines

  predicate MatchesSearch(t: Task, term: string) {
    ContainsIgnoringCase(t.title, term) || ContainsIgnoringCase(t.description, term)
  }

  function Matches(term: string): Task -> bool {
    (t: Task) => MatchesSearch(t, term)
  }

  /** The search applied to either tab. */
  function FilteredTasks(tasks: seq<Task>, term: string): (r: seq<Task>)
    ensures forall t :: t in r <==> t in tasks && MatchesSearch(t, term)
    ensures IsSubsequence(r, tasks)
    ensures term == "" ==> r == tasks
  {
    if term == "" then
      forall t | t in tasks ensures MatchesSearch(t, term) {
        EmptyTermMatches(t.title);
      }
      FilterAll(tasks, Matches(term));
      Filter(tasks, Matches(term))
    else Filter(tasks, Matches(term))
  }

  /** The day a task is shown with: due day if active, completion day
      otherwise. */
  function DisplayDate(t: Task): (d: int)
    ensures t.kind.Active? ==> d == t.kind.dueDate
    ensures t.kind.Finished? ==> d == t.kind.completedDate
  {
    match t.kind
    case Active(due) => due
    case Finished(done) => done
  }

  function DueKey(): Task -> int {
    (t: Task) => DisplayDate(t)
  }

  /** "Upcoming Deadlines": the filtered active tasks, earliest due day
      first. */
  function Deadlines(tasks: seq<Task>, term: string): (r: seq<Task>)
    ensures multiset(r) == multiset(FilteredTasks(tasks, term))
    ensures forall i, j :: 0 <= i < j < |r| ==> DisplayDate(r[i]) <= DisplayDate(r[j])
  {
    var r := SortBy(FilteredTasks(tasks, term), DueKey());
    assert SortedBy(r, DueKey());
    r
  }

  /** With no search the earliest mock deadline is task 3's. */
  lemma MockDeadlineOrder()
    ensures |Deadlines(MockTasks, "")| == 3
    ensures Deadlines(MockTasks, "")[0].id == "3"
  {
    var r := Deadlines(MockTasks, "");
    assert FilteredTasks(MockTasks, "") == MockTasks;
    assert |r| == |multiset(r)| == |multiset(MockTasks)| == 3;
    assert MockTasks[2] in multiset(r);
    var k :| 0 <= k < |r| && r[k] == MockTasks[2];
    assert r[0] in multiset(MockTasks);
    if k > 0 {
      assert DisplayDate(r[0]) <= DisplayDate(r[k]);
    }
  }

  /** The priority badge: High is red, Medium orange, anything else
      blue. */
  function PriorityTone(priority: string): (t: Tone)
    ensures t == Red <==> priority == "High"
    ensures t == Orange <==> priority == "Medium"
    ensures t == Blue <==> priority != "High" && priority != "Medium"
  {
    if priority == "High" then Red else if priority == "Medium" then Orange else Blue
  }

  // ---------------------------------------------------------------------------
  // The task dialog

  /** The selected task, the slider value and the comment box. */
  datatype TaskDialog = TaskDialog(selected: Option<Task>, progress: int, comment: string)

  /** The "Update" button: selects the task and loads its progress into the
      slider. The comment box is not reset. */
  function OpenTask(d: TaskDialog, t: Task): (r: TaskDialog)
    ensures r.selected == Some(t) && r.progress == t.progress
    ensures r.comment == d.comment
  {
    d.(selected := Some(t), progress := t.progress)
  }

  /** The range input only produces values from 0 to 100. */
  function SetProgress(d: TaskDialog, value: int): (r: TaskDialog)
    requires 0 <= value <= 100
    ensures r.progress == value && r.selected == d.selected && r.comment == d.comment
  {
    d.(progress := value)
  }

  datatype FooterButton = SubmitUpdate | MarkAsComplete

  function Footer(d: TaskDialog): (b: FooterButton)
    ensures b == SubmitUpdate <==> d.progress < 100
  {
    if d.progress < 100 then SubmitUpdate else MarkAsComplete
  }

  /** `handleTaskUpdate`: a blank comment is refused and kept; otherwise a
      success toast and the comment is cleared. */
  function TaskUpdate(d: TaskDialog): (r: (TaskDialog, Notice))
    ensures IsBlank(d.comment) ==> r == (d, ErrorToast)
    ensures !IsBlank(d.comment) ==> r == (d.(comment := ""), SuccessToast)
  {
    if IsBlank(d.comment) then (d, ErrorToast) else (d.(comment := ""), SuccessToast)
  }

  /** A comment of white space only counts as blank. */
  lemma WhiteSpaceCommentRefused(d: TaskDialog)
    requires forall i :: 0 <= i < |d.comment| ==> IsSpace(d.comment[i])
    ensures TaskUpdate(d).1 == ErrorToast && TaskUpdate(d).0 == d
  {
    BlankIffAllSpace(d.comment);
  }

  /** `handleTaskSubmit` only shows a toast: the task stays where it
      was. */
  function TaskSubmit(d: TaskDialog): (r: (TaskDialog, Notice))
    ensures r.0 == d && r.1 == SuccessToast
  {
    (d, SuccessToast)
  }

  /** Opening any mock active task offers "Submit Update" first; completed
      tasks have no dialog. */
  lemma MockTasksOpenForUpdate(d: TaskDialog, t: Task)
    requires t in MockTasks
    ensures Footer(OpenTask(d, t)) == SubmitUpdate
  {
    MockTasksAreConsistent();
  }
}

=== FILE: effects.dfy ===
/** The browser effects the portal performs, as values: the two
    local-storage keys, the toast shown, and navigation. */
module Effects {
  import opened Wrappers

  /** The profile kept for the signed-in user; `role` is whatever the server
      sent ("hr" or "employee" in practice). */
  datatype User = User(id: string, name: string, email: string, role: string)

  /** Local storage: `hrms_user` (a serialised User; serialisation is
      abstracted away) and `hrms_token` (the bearer token). */
  datatype Storage = Storage(savedUser: Option<User>, token: Option<string>)

  /** `localStorage.getItem("hrms_token")` is truthy. */
  predicate HasToken(st: Storage) {
    st.token.Some? && st.token.value != ""
  }

  /** `localStorage.removeItem("hrms_token")`, leaving `hrms_user` in place. */
  function DropToken(st: Storage): (r: Storage)
    ensures !HasToken(r) && r.token.None?
    ensures r.savedUser == st.savedUser
  {
    st.(token := None)
  }

  /** A local calendar day. Date strings the screens parse become a Date, or
      None when they do not parse (an invalid `Date` equals nothing). */
  datatype Date = Date(year: int, month: int, day: int)

  /** The toast a handler shows, if any. */
  datatype Notice = NoToast | SuccessToast | ErrorToast
}

=== FILE: employees.dfy ===
/** The HR employee screen (`EmployeeManagement`): search and department
    filter, department names, the list fetch and the add / edit / delete
    handlers. */
module Employees {
  import opened Wrappers
  import opened Effects
  import opened Http
  import opened Text
  import opened Seqs

  datatype DepartmentRef = DepartmentRef(id: string, departmentId: string, departmentName: string)

  /** An employee as the backend returns it; the department reference may be
      missing. */
  datatype Employee = Employee(
    id: string, employeeId: string, name: string, email: string, phone: string,
    position: string, department: Option<DepartmentRef>, role: string, status: string)

  /** The department column: its name, or "Unknown Department" when the
      reference or its name is missing. */
  function DepartmentName(e: Employee): (r: string)
    ensures e.department.Some? && e.department.value.departmentName != "" ==> r == e.department.value.departmentName
    ensures e.department.None? || e.department.value.departmentName == "" ==> r == "Unknown Department"
  {
    if e.department.Some? && e.department.value.departmentName != "" then e.department.value.departmentName
    else "Unknown Department"
  }

  /** The search test: an empty term, or the term found in name, email or
      phone, ignoring case. */
  predicate MatchesSearch(e: Employee, term: string) {
    term == ""
    || ContainsIgnoringCase(e.name, term)
    || ContainsIgnoringCase(e.email, term)
    || ContainsIgnoringCase(e.phone, term)
  }

  /** The department test with a missing reference treated as "no match". */
  predicate MatchesDepartment(e: Employee, dept: string) {
    dept == "all" || (e.department.Some? && e.department.value.id == dept)
  }

  /** Both tests, as the predicate handed to `filter`. */
  function Keep(term: string, dept: string): Employee -> bool {
    e => MatchesSearch(e, term) && MatchesDepartment(e, dept)
  }

  /** The search test against the reference definition of containment. */
  lemma MatchesSearchMeaning(e: Employee, term: string)
    ensures MatchesSearch(e, term) <==>
      term == "" || IsInfix(Lower(term), Lower(e.name)) || IsInfix(Lower(term), Lower(e.email))
      || IsInfix(Lower(term), Lower(e.phone))
  {
    ContainsIgnoringCaseMeaning(e.name, term);
    ContainsIgnoringCaseMeaning(e.email, term);
    ContainsIgnoringCaseMeaning(e.phone, term);
  }

  /** `filteredEmployees`: the employees passing both tests, in list order. */
  function FilteredEmployees(emps: seq<Employee>, term: string, dept: string): (r: seq<Employee>)
    ensures forall e :: e in r <==> e in emps && MatchesSearch(e, term) && MatchesDepartment(e, dept)
    ensures IsSubsequence(r, emps)
    ensures term == "" && dept == "all" ==> r == emps
  {
    if term == "" && dept == "all" then
      FilterAll(emps, Keep(term, dept));
      Filter(emps, Keep(term, dept))
    else Filter(emps, Keep(term, dept))
  }

  // ---------------------------------------------------------------------------
  // The department test as written reads `employee.department._id` without a
  // null check, while the department column guards the same reference.

  /** The department test as written: None when reading the id of a missing
      department throws. */
  function MatchesDepartmentAsWritten(e: Employee, dept: string): Option<bool> {
    if dept == "all" then Some(true)
    else if e.department.None? then None
    else Some(e.department.value.id == dept)
  }

  /** `filteredEmployees` as written: None when the render throws. */
  function FilteredEmployeesAsWritten(emps: seq<Employee>, term: string, dept: string): Option<seq<Employee>>
    decreases |emps|
  {
    if |emps| == 0 then Some([])
    else
      match MatchesDepartmentAsWritten(emps[0], dept)
      case None => None
      case Some(d) =>
        match FilteredEmployeesAsWritten(emps[1..], term, dept)
        case None => None
        case Some(rest) => Some((if MatchesSearch(emps[0], term) && d then [emps[0]] else []) + rest)
  }

  ghost predicate AllHaveDepartment(emps: seq<Employee>) {
    forall i :: 0 <= i < |emps| ==> emps[i].department.Some?
  }

  /** The render throws exactly when a department is selected and some
      employee has no department. */
  lemma {:induction false} AsWrittenThrowsOnMissingDepartment(emps: seq<Employee>, term: string, dept: string)
    ensures FilteredEmployeesAsWritten(emps, term, dept).None? <==> dept != "all" && !AllHaveDepartment(emps)
    decreases |emps|
  {
    if |emps| > 0 {
      AsWrittenThrowsOnMissingDepartment(emps[1..], term, dept);
      if AllHaveDepartment(emps[1..]) && emps[0].department.Some? {
        forall i | 0 <= i < |emps| ensures emps[i].department.Some? {
          if i > 0 { assert emps[i] == emps[1..][i - 1]; }
        }
      }
      if AllHaveDepartment(emps) {
        forall i | 0 <= i < |emps| - 1 ensures emps[1..][i].department.Some? {
          assert emps[1..][i] == emps[i + 1];
        }
      }
    }
  }

  lemma {:induction false} AsWrittenIsFilter(emps: seq<Employee>, term: string, dept: string)
    requires FilteredEmployeesAsWritten(emps, term, dept).Some?
    ensures FilteredEmployeesAsWritten(emps, term, dept).value == Filter(emps, Keep(term, dept))
    decreases |emps|
  {
    if |emps| > 0 {
      AsWrittenIsFilter(emps[1..], term, dept);
    }
  }

  /** Whenever the render does not throw, it shows what the corrected filter
      shows. */
  lemma AsWrittenAgreesWhenItRenders(emps: seq<Employee>, term: string, dept: string)
    requires FilteredEmployeesAsWritten(emps, term, dept).Some?
    ensures FilteredEmployeesAsWritten(emps, term, dept).value == FilteredEmployees(emps, term, dept)
  {
    AsWrittenIsFilter(emps, term, dept);
    assert FilteredEmployees(emps, term, dept) == Filter(emps, Keep(term, dept));
  }

  /** A concrete input on which the screen throws: one employee without a
      department and the department filter set to "d1". */
  lemma MissingDepartmentCounterexample()
    ensures FilteredEmployeesAsWritten([Employee("1", "E1", "Ann", "a@x", "1", "Dev", None, "employee", "Active")], "", "d1").None?
  {
  }

  // ---------------------------------------------------------------------------
  // Requests

  /** `fetchEmployees`: a list reply replaces the list; a 401 with a JSON
      body drops the token and goes to "/login"; anything else shows an
      error and keeps the list. */
  function FetchEmployees(current: seq<Employee>, st: Storage, reply: Reply<ListBody<Employee>>): (r: Outcome<seq<Employee>>)
    ensures r.sent <==> HasToken(st)
    ensures r.state == (if HasToken(st) && reply.Answered? && reply.body.Items? then reply.body.items else current)
    ensures r.storage == (if HasToken(st) && reply == Rejected(401, true) then DropToken(st) else st)
    ensures r.navigate == (if HasToken(st) && reply == Rejected(401, true) then Some("/login") else None)
    ensures r.notice == NoToast <==>
      HasToken(st) && ((reply.Answered? && reply.body.Items?) || reply == Rejected(401, true))
  {
    var c: Call<ListBody<Employee>> := Classify(st, reply, true);
    if c.Done? then
      match c.body
      case Items(xs) => Outcome(xs, true, st, None, NoToast, false)
      case Malformed => Outcome(current, true, st, None, ErrorToast, false)
    else Settle(st, c, current, current)
  }

  /** The add-employee form. */
  datatype EmployeeForm = EmployeeForm(
    name: string, email: string, phone: string, position: string, departmentId: string,
    address: string, dob: string, salary: string, role: string)

  const BlankForm := EmployeeForm("", "", "", "", "", "", "", "", "employee")

  predicate IsHr(user: Option<User>) {
    user.Some? && user.value.role == "hr"
  }

  /** `handleAddEmployee`: only "hr" users may add; the fields are not
      validated; success resets the form. */
  function AddEmployee(user: Option<User>, st: Storage, form: EmployeeForm, reply: Reply<()>): (r: Outcome<EmployeeForm>)
    ensures !IsHr(user) ==> !r.sent && r.notice == ErrorToast && r.state == form && r.storage == st
    ensures r.sent <==> IsHr(user) && HasToken(st)
    ensures r.state == (if r.sent && reply.Answered? then BlankForm else form)
    ensures r.storage == (if r.sent && reply == Rejected(401, true) then DropToken(st) else st)
    ensures r.navigate == (if r.sent && reply == Rejected(401, true) then Some("/login") else None)
    ensures r.notice ==
      (if r.sent && reply.Answered? then SuccessToast
       else if r.sent && reply == Rejected(401, true) then NoToast
       else ErrorToast)
    ensures r.refetch <==> r.sent && reply.Answered?
  {
    if !IsHr(user) then Refuse(st, form, ErrorToast)
    else Settle(st, Classify(st, reply, true), form, BlankForm)
  }

  /** `handleDelete`: nothing happens without a selection; only "hr" users
      may delete; success clears the selection. */
  function DeleteEmployee(user: Option<User>, st: Storage, selected: Option<Employee>, reply: Reply<()>): (r: Outcome<Option<Employee>>)
    ensures selected.None? ==> !r.sent && r.notice == NoToast && r.state.None?
    ensures selected.Some? && !IsHr(user) ==> !r.sent && r.notice == ErrorToast && r.state == selected
    ensures r.sent <==> selected.Some? && IsHr(user) && HasToken(st)
    ensures r.state == (if r.sent && reply.Answered? then None else selected)
    ensures r.storage == (if r.sent && reply == Rejected(401, true) then DropToken(st) else st)
    ensures r.navigate == (if r.sent && reply == Rejected(401, true) then Some("/login") else None)
    ensures selected.Some? ==>
      r.notice == (if r.sent && reply.Answered? then SuccessToast
                   else if r.sent && reply == Rejected(401, true) then NoToast
                   else ErrorToast)
    ensures r.refetch <==> r.sent && reply.Answered?
  {
    if selected.None? then Refuse(st, selected, NoToast)
    else if !IsHr(user) then Refuse(st, selected, ErrorToast)
    else Settle(st, Classify(st, reply, true), selected, None)
  }

  /** `handleEditSave`: the token is checked before the selection, and the
      user's role is not checked at all. */
  function SaveEdit(user: Option<User>, st: Storage, selected: Option<Employee>, reply: Reply<()>): (r: Outcome<Option<Employee>>)
    ensures !HasToken(st) ==> !r.sent && r.notice == ErrorToast
    ensures HasToken(st) && selected.None? ==> !r.sent && r.notice == NoToast
    ensures r.sent <==> HasToken(st) && selected.Some?
    ensures r.state == (if r.sent && reply.Answered? then None else selected)
    ensures r.storage == (if r.sent && reply == Rejected(401, true) then DropToken(st) else st)
    ensures r.navigate == (if r.sent && reply == Rejected(401, true) then Some("/login") else None)
    ensures r.sent ==>
      r.notice == (if reply.Answered? then SuccessToast else if reply == Rejected(401, true) then NoToast else ErrorToast)
    ensures r.refetch <==> r.sent && reply.Answered?
  {
    if !HasToken(st) then Refuse(st, selected, ErrorToast)
    else if selected.None? then Refuse(st, selected, NoToast)
    else Settle(st, Classify(st, reply, true), selected, None)
  }

  /** Editing behaves the same whoever is signed in. */
  lemma SaveEditIgnoresRole(u1: Option<User>, u2: Option<User>, st: Storage, selected: Option<Employee>, reply: Reply<()>)
    ensures SaveEdit(u1, st, selected, reply) == SaveEdit(u2, st, selected, reply)
  {
  }

  /** A signed-in employee can send an edit that the add and delete
      handlers would refuse. */
  lemma OnlyEditSkipsTheRoleCheck(u: User, st: Storage, e: Employee, form: EmployeeForm, reply: Reply<()>)
    requires u.role != "hr" && HasToken(st)
    ensures SaveEdit(Some(u), st, Some(e), reply).sent
    ensures !AddEmployee(Some(u), st, form, reply).sent
    ensures !DeleteEmployee(Some(u), st, Some(e), reply).sent
  {
  }
}

=== FILE: guard.dfy ===
/** The route guard (`Layout`) and the login page's redirect (`Index`). */
module Guard {
  import opened Wrappers
  import opened Effects
  import opened Auth

  /** The roles a page can require. */
  datatype PortalRole = Hr | Employee {
    function Name(): string {
      match this
      case Hr => "hr"
      case Employee => "employee"
    }
  }

  /** What `Layout` renders. */
  datatype GuardResult = Loading | Redirect(path: string) | Render

  /** `Layout`'s decision for the current auth state and the page's
      `requiredRole`. */
  function Layout(auth: AuthView, requiredRole: Option<PortalRole>): (r: GuardResult)
    ensures auth.isLoading ==> r == Loading
    ensures !auth.isLoading && !auth.isAuthenticated ==> r == Redirect("/")
    ensures r == Render <==>
      !auth.isLoading && auth.isAuthenticated
      && (requiredRole.None? || (auth.user.Some? && auth.user.value.role == requiredRole.value.Name()))
  {
    if auth.isLoading then Loading
    else if !auth.isAuthenticated then Redirect("/")
    else if requiredRole.Some? && (auth.user.None? || auth.user.value.role != requiredRole.value.Name()) then
      Redirect(if auth.user.Some? && auth.user.value.role == "hr" then "/hr-dashboard" else "/dashboard")
    else Render
  }

  /** A signed-in user on a page for the other role is sent to the home page
      of their own role. */
  lemma WrongRoleRedirectsHome(auth: AuthView, required: PortalRole)
    requires !auth.isLoading && auth.isAuthenticated && auth.user.Some?
    requires auth.user.value.role != required.Name()
    ensures Layout(auth, Some(required))
            == Redirect(if auth.user.value.role == "hr" then "/hr-dashboard" else "/dashboard")
  {
  }

  /** The role each page asks `Layout` for: only the two dashboards are
      wrapped in it; every other route (the sub-pages included) has no
      guard. */
  function GuardedRole(path: string): (r: Option<PortalRole>)
    ensures r == Some(Hr) <==> path == "/hr-dashboard"
    ensures r == Some(Employee) <==> path == "/dashboard"
    ensures r.None? <==> path != "/hr-dashboard" && path != "/dashboard"
  {
    if path == "/hr-dashboard" then Some(Hr)
    else if path == "/dashboard" then Some(Employee)
    else None
  }

  /** The path a guarded page's redirect leads to is itself guarded. */
  lemma RedirectTargetsAreGuarded(auth: AuthView, required: PortalRole, path: string)
    requires Layout(auth, Some(required)) == Redirect(path)
    requires auth.isAuthenticated
    ensures GuardedRole(path).Some?
  {
  }

  /** For the two known roles a wrong-role redirect lands on a page that
      renders, so it never loops. */
  lemma NoRedirectLoop(auth: AuthView, required: PortalRole, path: string)
    requires auth.user.Some? && auth.isAuthenticated
    requires auth.user.value.role == "hr" || auth.user.value.role == "employee"
    requires Layout(auth, Some(required)) == Redirect(path)
    ensures Layout(auth, GuardedRole(path)) == Render
  {
  }

  /** A role the portal does not know is sent to "/dashboard", whose guard
      sends it to "/dashboard" again. */
  lemma UnknownRoleLoops(auth: AuthView)
    requires !auth.isLoading && auth.isAuthenticated && auth.user.Some?
    requires auth.user.value.role != "hr" && auth.user.value.role != "employee"
    ensures Layout(auth, GuardedRole("/dashboard")) == Redirect("/dashboard")
  {
  }

  /** The routes below the two dashboards. */
  const SubPages: seq<string> := [
    "/dashboard/attendance", "/dashboard/leave-requests", "/dashboard/job-roles",
    "/dashboard/department-work", "/hr-dashboard/employees", "/hr-dashboard/recruitment",
    "/hr-dashboard/leave-management", "/hr-dashboard/payroll"]

  /** The sub-pages are not wrapped in `Layout`, so no role is checked on
      them. */
  lemma SubPagesUnguarded(p: string)
    requires p in SubPages
    ensures GuardedRole(p).None?
  {
  }

  /** What the login page shows. */
  datatype IndexResult = LoginForm | GoTo(path: string)

  /** `Index`: a signed-in user goes to their home page; otherwise the login
      form is shown. It does not look at the loading flag. */
  function Index(auth: AuthView): (r: IndexResult)
    ensures r == LoginForm <==> !auth.isAuthenticated
    ensures auth.isAuthenticated && auth.user.Some? && auth.user.value.role == "hr" ==> r == GoTo("/hr-dashboard")
    ensures auth.isAuthenticated && !(auth.user.Some? && auth.user.value.role == "hr") ==> r == GoTo("/dashboard")
  {
    if auth.isAuthenticated then
      GoTo(if auth.user.Some? && auth.user.value.role == "hr" then "/hr-dashboard" else "/dashboard")
    else LoginForm
  }

  /** The login page, the guard and `login` all send a user to the same home
      page. */
  lemma HomePagesAgree(s: Session, email: string, password: string, role: string, token: string, profile: User)
    ensures var auth := View(Login(s, email, password, role, Accepted(token, profile)).session);
            && Index(auth) == GoTo(Login(s, email, password, role, Accepted(token, profile)).navigate.value)
            && (Layout(auth, Some(Hr)).Redirect? ==> Index(auth) == GoTo(Layout(auth, Some(Hr)).path))
            && (Layout(auth, Some(Employee)).Redirect? ==> Index(auth) == GoTo(Layout(auth, Some(Employee)).path))
  {
  }

  /** For any provider state, the login page and the guard agree on where a
      signed-in user on the wrong page goes. */
  lemma IndexAgreesWithLayout(auth: AuthView, required: PortalRole)
    requires auth.isAuthenticated && auth.user.Some?
    requires Layout(auth, Some(required)).Redirect?
    ensures Index(auth) == GoTo(Layout(auth, Some(required)).path)
  {
  }

  /** Before the stored session is restored, a guarded page waits, but the
      start page, which ignores the loading flag, already shows the login
      form. */
  lemma FirstRenderWaits(st: Storage, required: Option<PortalRole>)
    ensures Layout(View(Mount(st)), required) == Loading
    ensures Index(View(Mount(st))) == LoginForm
  {
  }
}

=== FILE: http.dfy ===
/** The request pattern shared by the screens that talk to the backend:
    read the token, send, and sort the reply into success, expired session
    or error. */
module Http {
  import opened Wrappers
  import opened Effects

  /** What the backend answered: no answer at all, a non-2xx status (with a
      body that does or does not parse as JSON), or a 2xx body. */
  datatype Reply<T> = NetworkError | Rejected(status: int, jsonBody: bool) | Answered(body: T)

  /** How a handler's request ended. */
  datatype Call<T> =
    | NoToken          // no token stored: nothing is sent, an error is shown
    | Expired          // a 401 on a screen that treats it as an expired session
    | Failed           // any other failure: an error toast
    | Done(body: T)    // a 2xx reply

  /** A 2xx body that is expected to be `{ data: [...] }`. */
  datatype ListBody<T> = Items(items: seq<T>) | Malformed

  /** Sorts a reply. Screens that call `handle401` drop the token on a 401,
      but only after the error body has been parsed: a 401 whose body is not
      JSON throws first and ends as an ordinary error. */
  function Classify<T>(st: Storage, reply: Reply<T>, handle401: bool): (r: Call<T>)
    ensures r.NoToken? <==> !HasToken(st)
    ensures r.Expired? <==> HasToken(st) && handle401 && reply == Rejected(401, true)
    ensures r.Done? <==> HasToken(st) && reply.Answered?
    ensures r.Done? ==> r.body == reply.body
  {
    if !HasToken(st) then NoToken
    else match reply
      case NetworkError => Failed
      case Rejected(status, json) => if handle401 && status == 401 && json then Expired else Failed
      case Answered(b) => Done(b)
  }

  /** Whether a request reached the backend. */
  predicate Sent<T>(c: Call<T>) {
    !c.NoToken?
  }

  /** The outcome of a handler: the screen state it leaves behind, whether it
      sent a request, and its effects. `refetch` says the handler asked for
      the list to be loaded again. */
  datatype Outcome<S> = Outcome(
    state: S, sent: bool, storage: Storage, navigate: Option<string>, notice: Notice, refetch: bool)

  /** The common tail of a mutation handler: on success the new state, a
      success toast and a re-fetch; on an expired session the token is
      dropped and the user is sent to "/login" without a toast; otherwise an
      error toast and nothing else changes. */
  function Settle<S, T>(st: Storage, c: Call<T>, before: S, after: S): (r: Outcome<S>)
    ensures r.sent == Sent(c)
    ensures r.state == (if c.Done? then after else before)
    ensures r.storage == (if c.Expired? then DropToken(st) else st)
    ensures r.navigate == (if c.Expired? then Some("/login") else None)
    ensures r.notice == (if c.Done? then SuccessToast else if c.Expired? then NoToast else ErrorToast)
    ensures r.refetch <==> c.Done?
  {
    match c
    case NoToken => Outcome(before, false, st, None, ErrorToast, false)
    case Expired => Outcome(before, true, DropToken(st), Some("/login"), NoToast, false)
    case Failed => Outcome(before, true, st, None, ErrorToast, false)
    case Done(_) => Outcome(after, true, st, None, SuccessToast, true)
  }

  /** A handler that stops before any request (a failed client-side check). */
  function Refuse<S>(st: Storage, state: S, notice: Notice): (r: Outcome<S>)
    ensures !r.sent && r.state == state && r.storage == st && r.navigate.None? && !r.refetch
    ensures r.notice == notice
  {
    Outcome(state, false, st, None, notice, false)
  }

  /** The mount effect of the screens that load data from the backend
      (employees, leave): without a token the user is sent to "/login" and
      nothing is fetched. */
  function OpenScreen(st: Storage): (r: Outcome<bool>)
    ensures r.state <==> HasToken(st)
    ensures !HasToken(st) ==> r.navigate == Some("/login") && r.notice == ErrorToast
    ensures HasToken(st) ==> r.navigate.None? && r.notice == NoToast
    ensures r.storage == st
  {
    if HasToken(st) then Outcome(true, true, st, None, NoToast, false)
    else Outcome(false, false, st, Some("/login"), ErrorToast, false)
  }
}

=== FILE: job_roles.dfy ===
/** The internal job board (`JobRoles`): the mock openings, the search, the
    application dialog and the "Your Applications" list. Nothing here talks
    to the backend. */
module JobRoles {
  import opened Wrappers
  import opened Effects
  import opened Text
  import opened Seqs
  import opened Ui

  datatype JobRole = JobRole(id: string, title: string, department: string, location: string, salary: string)

  const MockJobRoles: seq<JobRole> := [
    JobRole("1", "Senior Frontend Developer", "Engineering", "San Francisco, CA (Hybrid)", "$120,000 - $150,000"),
    JobRole("2", "Product Manager", "Product", "New York, NY (Remote)", "$110,000 - $140,000"),
    JobRole("3", "UX Designer", "Design", "Chicago, IL (On-site)", "$90,000 - $120,000"),
    JobRole("4", "DevOps Engineer", "Infrastructure", "Austin, TX (Remote)", "$115,000 - $145,000"),
    JobRole("5", "Marketing Specialist", "Marketing", "Boston, MA (Hybrid)", "$85,000 - $110,000")
  ]

  /** An application of the signed-in employee; `interviewDate` is optional. */
  datatype JobApplication = JobApplication(id: string, jobId: string, jobTitle: string, status: string, interviewDate: Option<string>)

  const MockApplications: seq<JobApplication> := [
    JobApplication("1", "3", "UX Designer", "In Review", None),
    JobApplication("2", "1", "Senior Frontend Developer", "Interview Scheduled", Some("2025-04-25"))
  ]

  // ---------------------------------------------------------------------------
  // Search

  predicate MatchesSearch(j: JobRole, term: string) {
    ContainsIgnoringCase(j.title, term) || ContainsIgnoringCase(j.department, term)
    || ContainsIgnoringCase(j.location, term)
  }

  function Matches(term: string): JobRole -> bool {
    (j: JobRole) => MatchesSearch(j, term)
  }

  /** `filteredJobs`: the openings whose title, department or location
      contains the term, whatever its case, in their original order. */
  function FilteredJobs(jobs: seq<JobRole>, term: string): (r: seq<JobRole>)
    ensures forall j :: j in r <==> j in jobs && MatchesSearch(j, term)
    ensures IsSubsequence(r, jobs)
  {
    Filter(jobs, Matches(term))
  }

  /** The search ignores case: a term and its lower-case form find the same
      openings. */
  lemma SearchIgnoresCase(jobs: seq<JobRole>, term: string)
    ensures FilteredJobs(jobs, term) == FilteredJobs(jobs, Lower(term))
  {
    LowerIdempotent(term);
    FilterSameTest(jobs, Matches(term), Matches(Lower(term)));
  }

  /** An empty search shows every opening. */
  lemma EmptySearchShowsAll(jobs: seq<JobRole>)
    ensures FilteredJobs(jobs, "") == jobs
  {
    forall j | j in jobs ensures MatchesSearch(j, "") {
      EmptyTermMatches(j.title);
    }
    FilterAll(jobs, Matches(""));
  }

  // ---------------------------------------------------------------------------
  // Applying

  /** The selected opening and the cover letter being typed. */
  datatype ApplyDialog = ApplyDialog(selected: Option<JobRole>, coverLetter: string)

  /** The success toast names the opening; with no selection JavaScript
      prints "undefined". */
  function AppliedMessage(selected: Option<JobRole>): (m: string)
    ensures selected.Some? ==> m == "Application submitted for " + selected.value.title
    ensures selected.None? ==> m == "Application submitted for undefined"
  {
    "Application submitted for " + (if selected.Some? then selected.value.title else "undefined")
  }

  /** `handleApply`: a cover letter that is blank after trimming is
      refused and kept; otherwise the letter is cleared and a success toast
      shown. Whether an opening is selected is not checked. */
  function Apply(d: ApplyDialog): (r: (ApplyDialog, Notice))
    ensures IsBlank(d.coverLetter) ==> r == (d, ErrorToast)
    ensures !IsBlank(d.coverLetter) ==> r.0 == d.(coverLetter := "") && r.1 == SuccessToast
  {
    if IsBlank(d.coverLetter) then (d, ErrorToast) else (d.(coverLetter := ""), SuccessToast)
  }

  /** Applying succeeds with any letter that has a character outside white
      space, selection or not. */
  lemma ApplyAcceptsAnyNonBlankLetter(d: ApplyDialog, i: nat)
    requires i < |d.coverLetter| && !IsSpace(d.coverLetter[i])
    ensures Apply(d).1 == SuccessToast && Apply(d).0.coverLetter == ""
  {
    BlankIffAllSpace(d.coverLetter);
  }

  // ---------------------------------------------------------------------------
  // Your applications

  function ApplicationTone(status: string): (t: Tone)
    ensures t == Blue <==> status == "Interview Scheduled"
    ensures t == Orange <==> status != "Interview Scheduled"
  {
    if status == "Interview Scheduled" then Blue else Orange
  }

  /** The interview note shows when the application has a non-empty
      interview date. */
  function ShowsInterviewNote(a: JobApplication): (b: bool)
    ensures b <==> a.interviewDate.Some? && a.interviewDate.value != ""
  {
    Present(a.interviewDate)
  }

  /** In the mock list, exactly the application with an interview scheduled
      carries an interview note. */
  lemma MockNotesFollowStatus()
    ensures forall a :: a in MockApplications ==>
      (ShowsInterviewNote(a) <==> ApplicationTone(a.status) == Blue)
  {
  }
}

=== FILE: leave_management.dfy ===
/** The HR leave screen (`LeaveManagement`): loading and reshaping the
    requests, the statistics cards, the filter, and the approve / reject
    handlers. */
module LeaveManagement {
  import opened Wrappers
  import opened Effects
  import opened Http
  import opened Text
  import opened Seqs
  import opened Ui

  /** The requesting employee as embedded in a leave request. */
  datatype Staff = Staff(
    id: string, name: Option<string>, email: string, department: string,
    employeeId: Option<string>, position: Option<string>)

  /** A leave request. Fields the backend may leave out are optional; dates
      are None when they do not parse. */
  datatype LeaveRequest = LeaveRequest(
    id: string, employee: Option<Staff>, leaveType: string, start: Option<Date>, end: Option<Date>,
    reason: Option<string>, status: Option<string>, created: Option<Date>)

  // ---------------------------------------------------------------------------
  // Loading

  /** One request as reshaped: the employee's position defaults to "N/A". */
  function WithDefaultPosition(l: LeaveRequest): (m: LeaveRequest)
    requires l.employee.Some?
    ensures m.employee == Some(l.employee.value.(position := Some(OrElse(l.employee.value.position, "N/A"))))
    ensures m == l.(employee := m.employee)
  {
    l.(employee := Some(l.employee.value.(position := Some(OrElse(l.employee.value.position, "N/A")))))
  }

  /** The reshaping step applied to a fetched list: it reads
      `leave.employeeId._id`, so one request without an employee makes the
      whole load fail (None); a missing position becomes "N/A". */
  function Reshape(raw: seq<LeaveRequest>): (r: Option<seq<LeaveRequest>>)
    ensures r.None? <==> exists i :: 0 <= i < |raw| && raw[i].employee.None?
    ensures r.Some? ==> |r.value| == |raw|
    ensures r.Some? ==> forall i :: 0 <= i < |raw| ==>
      r.value[i].employee.Some? && r.value[i] == raw[i].(employee := r.value[i].employee)
    ensures r.Some? ==> forall i :: 0 <= i < |raw| ==>
      r.value[i].employee.value.position == Some(OrElse(raw[i].employee.value.position, "N/A"))
    ensures r.Some? ==> forall i :: 0 <= i < |raw| ==>
      r.value[i].employee
      == Some(raw[i].employee.value.(position := Some(OrElse(raw[i].employee.value.position, "N/A"))))
    decreases |raw|
  {
    if |raw| == 0 then Some([])
    else if raw[0].employee.None? then None
    else
      match Reshape(raw[1..])
      case None =>
        assert exists i :: 0 <= i < |raw| && raw[i].employee.None? by {
          var j :| 0 <= j < |raw[1..]| && raw[1..][j].employee.None?;
          assert raw[j + 1] == raw[1..][j];
        }
        None
      case Some(rest) =>
        var out := [WithDefaultPosition(raw[0])] + rest;
        assert forall i :: 0 <= i < |raw| ==> raw[i].employee.Some? && out[i] == WithDefaultPosition(raw[i]) by {
          forall i | 0 <= i < |raw|
            ensures raw[i].employee.Some? && out[i] == WithDefaultPosition(raw[i])
          {
            if i > 0 {
              assert raw[i] == raw[1..][i - 1];
              assert out[i] == rest[i - 1];
            }
          }
        }
        Some(out)
  }

  /** The statistics cards. */
  datatype Stats = Stats(pending: nat, todayAbsences: nat, thisMonth: nat)

  function IsPending(l: LeaveRequest): bool {
    l.status == Some("pending")
  }

  /** An approved request that starts today. */
  function AbsentToday(today: Date): LeaveRequest -> bool {
    (l: LeaveRequest) => l.start == Some(today) && l.status == Some("approved")
  }

  /** A request created in today's month and year. */
  function CreatedThisMonth(today: Date): LeaveRequest -> bool {
    (l: LeaveRequest) => l.created.Some? && l.created.value.month == today.month && l.created.value.year == today.year
  }

  /** The three counters, each the length of a filtered list. */
  function ComputeStats(reqs: seq<LeaveRequest>, today: Date): (s: Stats)
    ensures s.pending == |IndicesWhere(reqs, IsPending)|
    ensures s.todayAbsences == |IndicesWhere(reqs, AbsentToday(today))|
    ensures s.thisMonth == |IndicesWhere(reqs, CreatedThisMonth(today))|
    ensures s.pending <= |reqs| && s.todayAbsences <= |reqs| && s.thisMonth <= |reqs|
  {
    FilterLengthCountsPositions(reqs, IsPending);
    FilterLengthCountsPositions(reqs, AbsentToday(today));
    FilterLengthCountsPositions(reqs, CreatedThisMonth(today));
    Stats(|Filter(reqs, IsPending)|, |Filter(reqs, AbsentToday(today))|, |Filter(reqs, CreatedThisMonth(today))|)
  }

  /** Today's absences are approved requests, so they never outnumber the
      requests that are not pending. */
  lemma AbsencesAreNotPending(reqs: seq<LeaveRequest>, today: Date)
    ensures ComputeStats(reqs, today).todayAbsences + ComputeStats(reqs, today).pending <= |reqs|
  {
    FilterDisjointLengths(reqs, AbsentToday(today), IsPending);
  }

  /** The screen's data: the requests and the statistics. */
  datatype LeaveScreen = LeaveScreen(requests: seq<LeaveRequest>, stats: Stats)

  /** `fetchLeaveRequests`: a list that reshapes replaces the requests and
      recomputes the statistics; a 401 with a JSON body drops the token and
      goes to "/login"; anything else keeps the screen as it was. */
  function FetchLeaveRequests(screen: LeaveScreen, st: Storage, reply: Reply<ListBody<LeaveRequest>>, today: Date)
    : (r: Outcome<LeaveScreen>)
    ensures r.sent <==> HasToken(st)
    ensures r.state != screen ==>
      HasToken(st) && reply.Answered? && reply.body.Items? && Reshape(reply.body.items).Some?
      && r.state.requests == Reshape(reply.body.items).value
      && r.state.stats == ComputeStats(r.state.requests, today)
    ensures HasToken(st) && reply.Answered? && reply.body.Items? && Reshape(reply.body.items).Some? ==>
      r.state.requests == Reshape(reply.body.items).value
      && r.state.stats == ComputeStats(r.state.requests, today) && r.notice == NoToast
    ensures r.storage == (if HasToken(st) && reply == Rejected(401, true) then DropToken(st) else st)
    ensures r.navigate == (if HasToken(st) && reply == Rejected(401, true) then Some("/login") else None)
    ensures r.notice ==
      (if HasToken(st) && reply == Rejected(401, true) then NoToast
       else if HasToken(st) && reply.Answered? && reply.body.Items? && Reshape(reply.body.items).Some? then NoToast
       else ErrorToast)
    ensures !r.refetch
  {
    var c: Call<ListBody<LeaveRequest>> := Classify(st, reply, true);
    if c.Done? then
      match c.body
      case Items(raw) =>
        (match Reshape(raw)
         case Some(reqs) => Outcome(LeaveScreen(reqs, ComputeStats(reqs, today)), true, st, None, NoToast, false)
         case None => Outcome(screen, true, st, None, ErrorToast, false))
      case Malformed => Outcome(screen, true, st, None, ErrorToast, false)
    else Settle(st, c, screen, screen)
  }

  // ---------------------------------------------------------------------------
  // Filter

  predicate MatchesSearch(l: LeaveRequest, term: string)
    requires l.employee.Some?
  {
    ContainsIgnoringCase(l.employee.value.name.GetOr(""), term)
    || ContainsIgnoringCase(l.employee.value.employeeId.GetOr(""), term)
    || ContainsIgnoringCase(l.reason.GetOr(""), term)
  }

  predicate MatchesDepartment(l: LeaveRequest, dept: string)
    requires l.employee.Some?
  {
    dept == "All" || l.employee.value.department == dept
  }

  /** A missing status matches only the "all" filter. */
  predicate MatchesStatus(l: LeaveRequest, status: string) {
    status == "all" || (l.status.Some? && EqualsIgnoringCase(l.status.value, status))
  }

  function Keep(term: string, dept: string, status: string): LeaveRequest -> bool {
    (l: LeaveRequest) => l.employee.Some? && MatchesSearch(l, term) && MatchesDepartment(l, dept) && MatchesStatus(l, status)
  }

  /** `filteredLeaveRequests`: requests without an employee are dropped
      before any test. */
  function FilteredLeaveRequests(reqs: seq<LeaveRequest>, term: string, dept: string, status: string)
    : (r: seq<LeaveRequest>)
    ensures forall l :: l in r ==> l.employee.Some?
    ensures forall l :: l in r <==>
      l in reqs && l.employee.Some? && MatchesSearch(l, term) && MatchesDepartment(l, dept) && MatchesStatus(l, status)
    ensures IsSubsequence(r, reqs)
  {
    Filter(reqs, Keep(term, dept, status))
  }

  /** The empty term finds every request that has an employee. */
  lemma EmptyTermFindsEveryRequest(l: LeaveRequest)
    requires l.employee.Some?
    ensures MatchesSearch(l, "")
  {
  }

  /** A missing name, employee id or reason searches exactly like the empty
      string, for every term. */
  lemma MissingFieldsSearchAsEmpty(l: LeaveRequest, term: string)
    requires l.employee.Some?
    ensures l.reason.None? ==> MatchesSearch(l, term) == MatchesSearch(l.(reason := Some("")), term)
    ensures l.employee.value.name.None? ==>
      MatchesSearch(l, term) == MatchesSearch(l.(employee := Some(l.employee.value.(name := Some("")))), term)
    ensures l.employee.value.employeeId.None? ==>
      MatchesSearch(l, term) == MatchesSearch(l.(employee := Some(l.employee.value.(employeeId := Some("")))), term)
  {
  }

  /** After a successful load every request has an employee, so the
      filter's null check never drops one: with default filters the whole
      reshaped list is shown. */
  lemma LoadedListShownInFull(raw: seq<LeaveRequest>)
    requires Reshape(raw).Some?
    ensures FilteredLeaveRequests(Reshape(raw).value, "", "All", "all") == Reshape(raw).value
  {
    FilterAll(Reshape(raw).value, Keep("", "All", "all"));
  }

  // ---------------------------------------------------------------------------
  // Approve and reject

  /** `handleApprove`: nothing happens without a selection; success clears
      it. */
  function Approve(st: Storage, selected: Option<LeaveRequest>, reply: Reply<()>): (r: Outcome<Option<LeaveRequest>>)
    ensures selected.None? ==> !r.sent && r.notice == NoToast
    ensures r.sent <==> selected.Some? && HasToken(st)
    ensures r.state == (if r.sent && reply.Answered? then None else selected)
    ensures r.storage == (if r.sent && reply == Rejected(401, true) then DropToken(st) else st)
    ensures r.navigate == (if r.sent && reply == Rejected(401, true) then Some("/login") else None)
    ensures selected.Some? ==>
      r.notice == (if r.sent && reply.Answered? then SuccessToast
                   else if r.sent && reply == Rejected(401, true) then NoToast
                   else ErrorToast)
    ensures r.refetch <==> r.sent && reply.Answered?
  {
    if selected.None? then Refuse(st, selected, NoToast)
    else Settle(st, Classify(st, reply, true), selected, None)
  }

  /** The reject dialog: the selected request and the typed reason. */
  datatype RejectForm = RejectForm(selected: Option<LeaveRequest>, reason: string)

  /** `handleReject`: needs a selection and a reason that is not blank; on
      success both are cleared. */
  function Reject(st: Storage, form: RejectForm, reply: Reply<()>): (r: Outcome<RejectForm>)
    ensures form.selected.None? || IsBlank(form.reason) ==> !r.sent && r.notice == ErrorToast && r.state == form
    ensures r.sent <==> form.selected.Some? && !IsBlank(form.reason) && HasToken(st)
    ensures r.sent && reply.Answered? ==> r.state == RejectForm(None, "")
    ensures !(r.sent && reply.Answered?) ==> r.state == form
    ensures r.storage == (if r.sent && reply == Rejected(401, true) then DropToken(st) else st)
    ensures r.navigate == (if r.sent && reply == Rejected(401, true) then Some("/login") else None)
    ensures r.notice ==
      (if r.sent && reply.Answered? then SuccessToast
       else if r.sent && reply == Rejected(401, true) then NoToast
       else ErrorToast)
    ensures r.refetch <==> r.sent && reply.Answered?
  {
    if form.selected.None? || IsBlank(form.reason) then Refuse(st, form, ErrorToast)
    else Settle(st, Classify(st, reply, true), form, RejectForm(None, ""))
  }

  /** A reason of spaces and line breaks only is refused. */
  lemma WhiteSpaceReasonRefused(st: Storage, form: RejectForm, reply: Reply<()>)
    requires forall i :: 0 <= i < |form.reason| ==> IsSpace(form.reason[i])
    ensures !Reject(st, form, reply).sent
  {
    BlankIffAllSpace(form.reason);
  }

  /** Approve and reject are offered only for a pending request. */
  function ShowsDecision(selected: Option<LeaveRequest>): (b: bool)
    ensures b <==> selected.Some? && IsPending(selected.value)
  {
    selected.Some? && selected.value.status == Some("pending")
  }

  /** A request offered for a decision is one the "pending" card counts. */
  lemma DecisionsAreCountedPending(reqs: seq<LeaveRequest>, i: int, today: Date)
    requires 0 <= i < |reqs| && ShowsDecision(Some(reqs[i]))
    ensures i in IndicesWhere(reqs, IsPending)
    ensures ComputeStats(reqs, today).pending > 0
  {
  }

  /** Once the server accepts an approval or a rejection, no request is
      offered for a decision any more: the selection is cleared. */
  lemma DecidedRequestLeavesDialog(st: Storage, l: LeaveRequest, reason: string, reply: Reply<()>)
    requires HasToken(st) && reply.Answered?
    ensures Approve(st, Some(l), reply).sent && !ShowsDecision(Approve(st, Some(l), reply).state)
    ensures !IsBlank(reason) ==>
      Reject(st, RejectForm(Some(l), reason), reply).sent
      && !ShowsDecision(Reject(st, RejectForm(Some(l), reason), reply).state.selected)
  {
  }

  // ---------------------------------------------------------------------------
  // Status column

  /** The status text, capitalised; a missing or empty status reads
      "Pending". */
  function StatusLabel(status: Option<string>): (s: string)
    ensures !Present(status) ==> s == "Pending"
    ensures Present(status) ==> |s| == |status.value| && s[1..] == status.value[1..]
    ensures Present(status) ==> s[0] == UpperChar(status.value[0])
  {
    Capitalize(OrElse(status, "pending"))
  }

  function StatusBadge(status: Option<string>): (t: Tone)
    ensures t == Green <==> status == Some("approved")
    ensures t == Red <==> status == Some("rejected")
    ensures t == Orange <==> status != Some("approved") && status != Some("rejected")
  {
    if status == Some("approved") then Green else if status == Some("rejected") then Red else Orange
  }
}

=== FILE: leave_requests.dfy ===
/** The employee's leave screen (`LeaveRequests`): the request form, its
    submit handler and the history table. */
module LeaveRequests {
  import opened Wrappers
  import opened Effects
  import opened Http
  import opened Text
  import opened Ui

  /** The four form fields, as typed, and the submit flag. */
  datatype LeaveForm = LeaveForm(leaveType: string, startDate: string, endDate: string, reason: string, isLoading: bool)

  /** Every field is non-empty. The test is JavaScript truthiness, so a
      field of spaces passes. */
  predicate Filled(f: LeaveForm) {
    f.leaveType != "" && f.startDate != "" && f.endDate != "" && f.reason != ""
  }

  /** `handleSubmit`. An empty field stops it with an error. Otherwise the
      token is read (none: error, nothing sent) and the request is posted;
      a 2xx reply whose body parses (`Answered(true)`) resets the form and
      re-fetches the history; any failure, a 401 included, shows an error
      and keeps what was typed. The submit flag is always cleared at the
      end. */
  function Submit(st: Storage, form: LeaveForm, reply: Reply<bool>): (r: Outcome<LeaveForm>)
    ensures !Filled(form) ==> !r.sent && r.notice == ErrorToast && r.state == form
    ensures r.sent <==> Filled(form) && HasToken(st)
    ensures Filled(form) ==> !r.state.isLoading
    ensures r.sent && reply == Answered(true) ==>
      r.state == LeaveForm("", "", "", "", false) && r.notice == SuccessToast && r.refetch
    ensures !(r.sent && reply == Answered(true)) ==>
      r.state.(isLoading := form.isLoading) == form && r.notice == ErrorToast && !r.refetch
    ensures r.storage == st && r.navigate.None?
  {
    if !Filled(form) then Refuse(st, form, ErrorToast)
    else
      var c := Classify(st, reply, false);
      var idle := form.(isLoading := false);
      if c == Done(true) then Outcome(LeaveForm("", "", "", "", false), true, st, None, SuccessToast, true)
      else Outcome(idle, Sent(c), st, None, ErrorToast, false)
  }

  /** The only check is emptiness: a reason of a single space, and an end
      date before the start date, are sent all the same. */
  lemma SubmitChecksOnlyEmptiness(st: Storage)
    requires HasToken(st)
    ensures Submit(st, LeaveForm("annual", "2025-05-10", "2025-05-01", " ", false), Answered(true)).sent
  {
  }

  /** This screen has no session-expiry handling: a 401 never drops the
      token or navigates. */
  lemma SubmitKeepsSessionOn401(st: Storage, form: LeaveForm, json: bool)
    ensures Submit(st, form, Rejected(401, json)).storage == st
    ensures Submit(st, form, Rejected(401, json)).navigate.None?
  {
  }

  /** `fetchLeaveRequests`: a 2xx reply replaces the history with its
      `data` field, which is None when the body has no list; any failure
      keeps the history and shows an error. */
  function FetchHistory<T>(history: Option<seq<T>>, st: Storage, reply: Reply<ListBody<T>>): (r: Outcome<Option<seq<T>>>)
    ensures r.sent <==> HasToken(st)
    ensures HasToken(st) && reply.Answered? ==>
      r.state == (if reply.body.Items? then Some(reply.body.items) else None) && r.notice == NoToast
    ensures !(HasToken(st) && reply.Answered?) ==> r.state == history && r.notice == ErrorToast
    ensures r.storage == st && r.navigate.None?
  {
    var c := Classify(st, reply, false);
    if c.Done? then
      Outcome(if c.body.Items? then Some(c.body.items) else None, true, st, None, NoToast, false)
    else Outcome(history, Sent(c), st, None, ErrorToast, false)
  }

  /** The submit button is disabled while a request is in flight. */
  function ButtonLabel(isLoading: bool): (s: string)
    ensures isLoading <==> s == "Submitting..."
  {
    if isLoading then "Submitting..." else "Submit Leave Request"
  }

  /** The status cell's text: the status with its first letter upper-cased;
      unlike the HR screen there is no fallback for an empty status. */
  function StatusLabel(status: string): (s: string)
    ensures |s| == |status|
    ensures status != "" ==> s[0] == UpperChar(status[0]) && s[1..] == status[1..]
  {
    Capitalize(status)
  }

  /** The status cell's colour: approved is green, pending yellow, anything
      else red. */
  function StatusBadge(status: string): (t: Tone)
    ensures t == Green <==> status == "approved"
    ensures t == Yellow <==> status == "pending"
    ensures t == Red <==> status != "approved" && status != "pending"
  {
    if status == "approved" then Green else if status == "pending" then Yellow else Red
  }
}

=== FILE: payroll.dfy ===
/** The HR payroll screen (`PayrollSystem`): the entry filter, the footer
    total, the "run payroll" progress updater and the per-entry actions. */
module Payroll {
  import opened Wrappers
  import opened Text
  import opened Seqs

  /** One payroll line; amounts are whole dollars. */
  datatype PayrollEntry = PayrollEntry(
    id: string, employeeName: string, employeeId: string, department: string, position: string,
    baseSalary: int, bonus: int, deductions: int, netSalary: int, status: string)

  /** The search test: the term found in name, employee id or position,
      ignoring case. There is no empty-term shortcut; an empty term is found
      anyway. */
  predicate MatchesSearch(e: PayrollEntry, term: string) {
    ContainsIgnoringCase(e.employeeName, term)
    || ContainsIgnoringCase(e.employeeId, term)
    || ContainsIgnoringCase(e.position, term)
  }

  /** "All" (capital A) or the exact department. */
  predicate MatchesDepartment(e: PayrollEntry, dept: string) {
    dept == "All" || e.department == dept
  }

  /** "all" or the status, ignoring case. */
  predicate MatchesStatus(e: PayrollEntry, status: string) {
    status == "all" || EqualsIgnoringCase(e.status, status)
  }

  function Keep(term: string, dept: string, status: string): PayrollEntry -> bool {
    e => MatchesSearch(e, term) && MatchesDepartment(e, dept) && MatchesStatus(e, status)
  }

  /** `filteredPayroll`. */
  function FilteredPayroll(entries: seq<PayrollEntry>, term: string, dept: string, status: string): (r: seq<PayrollEntry>)
    ensures forall e :: e in r <==>
      e in entries && MatchesSearch(e, term) && MatchesDepartment(e, dept) && MatchesStatus(e, status)
    ensures IsSubsequence(r, entries)
  {
    Filter(entries, Keep(term, dept, status))
  }

  /** An empty search term passes the search test for every entry. */
  lemma EmptySearchKeepsEverything(e: PayrollEntry)
    ensures MatchesSearch(e, "")
  {
  }

  /** With every filter at its default the whole list is shown. */
  lemma DefaultFiltersShowAll(entries: seq<PayrollEntry>)
    ensures FilteredPayroll(entries, "", "All", "all") == entries
  {
    FilterAll(entries, Keep("", "All", "all"));
  }

  // ---------------------------------------------------------------------------
  // Footer total

  /** Reference sum of the net salaries. */
  function TotalNet(entries: seq<PayrollEntry>): int
    decreases |entries|
  {
    if |entries| == 0 then 0 else entries[0].netSalary + TotalNet(entries[1..])
  }

  /** `entries.reduce((sum, entry) => sum + entry.netSalary, acc)`. */
  function ReduceNet(acc: int, entries: seq<PayrollEntry>): int
    decreases |entries|
  {
    if |entries| == 0 then acc else ReduceNet(acc + entries[0].netSalary, entries[1..])
  }

  lemma {:induction false} ReduceIsAccPlusTotal(acc: int, entries: seq<PayrollEntry>)
    ensures ReduceNet(acc, entries) == acc + TotalNet(entries)
    decreases |entries|
  {
    if |entries| > 0 {
      ReduceIsAccPlusTotal(acc + entries[0].netSalary, entries[1..]);
    }
  }

  /** The footer: the reduce over the filtered entries. */
  function FooterTotal(entries: seq<PayrollEntry>, term: string, dept: string, status: string): (r: int)
    ensures r == TotalNet(FilteredPayroll(entries, term, dept, status))
  {
    ReduceIsAccPlusTotal(0, FilteredPayroll(entries, term, dept, status));
    ReduceNet(0, FilteredPayroll(entries, term, dept, status))
  }

  /** The entries a filter keeps and the ones it drops add up to the whole
      payroll. */
  lemma {:induction false} TotalSplits(entries: seq<PayrollEntry>, p: PayrollEntry -> bool)
    ensures TotalNet(Filter(entries, p)) + TotalNet(Filter(entries, e => !p(e))) == TotalNet(entries)
    decreases |entries|
  {
    if |entries| > 0 {
      TotalSplits(entries[1..], p);
      assert Filter(entries, p) == (if p(entries[0]) then [entries[0]] else []) + Filter(entries[1..], p);
      var q := e => !p(e);
      assert Filter(entries, q) == (if q(entries[0]) then [entries[0]] else []) + Filter(entries[1..], q);
      if p(entries[0]) {
        assert ([entries[0]] + Filter(entries[1..], p))[1..] == Filter(entries[1..], p);
      } else {
        assert ([entries[0]] + Filter(entries[1..], q))[1..] == Filter(entries[1..], q);
      }
    }
  }

  /** With non-negative net salaries the footer never exceeds the full
      payroll. */
  lemma FooterAtMostTotal(entries: seq<PayrollEntry>, term: string, dept: string, status: string)
    requires forall i :: 0 <= i < |entries| ==> entries[i].netSalary >= 0
    ensures FooterTotal(entries, term, dept, status) <= TotalNet(entries)
  {
    var p := Keep(term, dept, status);
    TotalSplits(entries, p);
    NonNegativeTotal(Filter(entries, e => !p(e)));
  }

  lemma {:induction false} NonNegativeTotal(entries: seq<PayrollEntry>)
    requires forall e :: e in entries ==> e.netSalary >= 0
    ensures TotalNet(entries) >= 0
    decreases |entries|
  {
    if |entries| > 0 {
      NonNegativeTotal(entries[1..]);
    }
  }

  // ---------------------------------------------------------------------------
  // Run payroll

  /** One tick of the progress updater: at 100 or more it reports 100 and
      stops processing; below 100 it adds 20. */
  function ProgressTick(prev: int): (r: (int, bool))
    ensures prev >= 100 ==> r == (100, true)
    ensures prev < 100 ==> r == (prev + 20, false)
  {
    if prev >= 100 then (100, true) else (prev + 20, false)
  }

  /** The progress shown after `n` ticks from 0. */
  function ProgressAfter(n: nat): int {
    if n == 0 then 0 else ProgressTick(ProgressAfter(n - 1)).0
  }

  /** After `n` ticks the bar shows min(20 n, 100): it never passes 100. */
  lemma {:induction false} ProgressIsCapped(n: nat)
    ensures ProgressAfter(n) == if 20 * n <= 100 then 20 * n else 100
    ensures 0 <= ProgressAfter(n) <= 100
  {
    if n > 0 {
      ProgressIsCapped(n - 1);
    }
  }

  /** The bar is full after exactly five ticks; the sixth tick is the one
      that stops processing. */
  lemma FullAfterFiveTicks(n: nat)
    ensures ProgressAfter(n) == 100 <==> n >= 5
    ensures ProgressTick(ProgressAfter(n)).1 <==> n >= 5
  {
    ProgressIsCapped(n);
  }

  // ---------------------------------------------------------------------------
  // Actions of the detail dialog

  datatype Actions = Actions(processPayment: bool, downloadSlip: bool)

  /** "Process Payment" for a pending entry, "Download Slip" for a processed
      one, nothing without a selection. */
  function EntryActions(selected: Option<PayrollEntry>): (r: Actions)
    ensures r.processPayment <==> selected.Some? && selected.value.status == "Pending"
    ensures r.downloadSlip <==> selected.Some? && selected.value.status == "Processed"
    ensures !(r.processPayment && r.downloadSlip)
  {
    match selected
    case None => Actions(false, false)
    case Some(e) => Actions(e.status == "Pending", e.status == "Processed")
  }

  // ---------------------------------------------------------------------------
  // The built-in payroll list

  const MockPayroll: seq<PayrollEntry> := [
    PayrollEntry("1", "John Doe", "EMP001", "Engineering", "Senior Frontend Developer", 120000, 5000, 3200, 121800, "Processed"),
    PayrollEntry("2", "Jane Smith", "EMP002", "Design", "UX Designer", 95000, 2000, 2100, 94900, "Processed"),
    PayrollEntry("3", "Robert Johnson", "EMP003", "Engineering", "Full Stack Developer", 110000, 0, 2800, 107200, "Pending"),
    PayrollEntry("4", "Emily Davis", "EMP004", "Product", "Product Manager", 115000, 3000, 3000, 115000, "Pending"),
    PayrollEntry("5", "Michael Wilson", "EMP005", "Infrastructure", "DevOps Engineer", 105000, 2500, 2600, 104900, "Pending"),
    PayrollEntry("6", "Amanda Martinez", "EMP006", "Marketing", "Marketing Specialist", 85000, 1000, 1800, 84200, "Pending")
  ]

  predicate NetIsConsistent(e: PayrollEntry) {
    e.netSalary == e.baseSalary + e.bonus - e.deductions
  }

  /** Every built-in entry's net salary is base plus bonus minus deductions,
      and the unfiltered footer shows 628,000. */
  lemma MockPayrollConsistent()
    ensures forall i :: 0 <= i < |MockPayroll| ==> NetIsConsistent(MockPayroll[i])
    ensures TotalNet(MockPayroll) == 628000
  {
  }
}

=== FILE: recruitment.dfy ===
/** The HR recruitment screen (`RecruitmentPanel`): the application filter,
    the status badge and what the detail dialog offers. */
module Recruitment {
  import opened Wrappers
  import opened Text
  import opened Seqs
  import opened Ui

  /** A job application; the interview date and rejection reason are only
      present for some applications. */
  datatype Application = Application(
    id: string, name: string, email: string, position: string, department: string, status: string,
    interviewDate: Option<string>, rejectionReason: Option<string>)

  predicate MatchesSearch(a: Application, term: string) {
    ContainsIgnoringCase(a.name, term)
    || ContainsIgnoringCase(a.position, term)
    || ContainsIgnoringCase(a.email, term)
  }

  predicate MatchesStatus(a: Application, status: string) {
    status == "all" || EqualsIgnoringCase(a.status, status)
  }

  function Keep(term: string, status: string): Application -> bool {
    a => MatchesSearch(a, term) && MatchesStatus(a, status)
  }

  /** `filteredApplications`. */
  function FilteredApplications(apps: seq<Application>, term: string, status: string): (r: seq<Application>)
    ensures forall a :: a in r <==> a in apps && MatchesSearch(a, term) && MatchesStatus(a, status)
    ensures IsSubsequence(r, apps)
  {
    Filter(apps, Keep(term, status))
  }

  /** The status filter ignores case: "new" and "NEW" select the same
      applications. */
  lemma StatusFilterIgnoresCase(apps: seq<Application>, term: string, s1: string, s2: string)
    requires s1 != "all" && s2 != "all" && Lower(s1) == Lower(s2)
    ensures FilteredApplications(apps, term, s1) == FilteredApplications(apps, term, s2)
  {
    assert forall a :: Keep(term, s1)(a) == Keep(term, s2)(a);
    FilterSameTest(apps, Keep(term, s1), Keep(term, s2));
  }

  /** The status badge. */
  function Badge(status: string): (t: Tone)
    ensures t == Blue <==> status == "New"
    ensures t == Purple <==> status == "Interview"
    ensures t == Red <==> status != "New" && status != "Interview"
  {
    if status == "New" then Blue else if status == "Interview" then Purple else Red
  }

  /** What the detail dialog shows for the selected application. */
  datatype Dialog = Dialog(
    interviewDate: bool, rejectionReason: bool, scheduleInterview: bool, rejectAndAccept: bool)

  /** Reject/Accept are offered unless the application is already rejected
      (and also when nothing is selected, since `undefined !== "Rejected"`);
      scheduling only for new applications; the date and reason only when
      the status says so and the field is filled in. */
  function DetailDialog(selected: Option<Application>): (d: Dialog)
    ensures d.rejectAndAccept <==> !(selected.Some? && selected.value.status == "Rejected")
    ensures d.scheduleInterview <==> selected.Some? && selected.value.status == "New"
    ensures d.interviewDate <==> selected.Some? && selected.value.status == "Interview" && Present(selected.value.interviewDate)
    ensures d.rejectionReason <==> selected.Some? && selected.value.status == "Rejected" && Present(selected.value.rejectionReason)
    ensures !(d.scheduleInterview && d.interviewDate)
    ensures d.rejectionReason ==> !d.rejectAndAccept
  {
    match selected
    case None => Dialog(false, false, false, true)
    case Some(a) =>
      Dialog(a.status == "Interview" && Present(a.interviewDate),
             a.status == "Rejected" && Present(a.rejectionReason),
             a.status == "New",
             a.status != "Rejected")
  }
}

=== FILE: seqs.dfy ===
/** The array operations the screens apply to fetched lists: `filter`,
    `find` and a stable `sort` by a numeric key. */
module Seqs {
  import opened Wrappers

  /** `r` can be obtained from `s` by deleting elements, keeping the order of
      the rest. */
  ghost predicate IsSubsequence<T>(r: seq<T>, s: seq<T>)
    decreases |s|
  {
    |r| == 0
    || (|s| > 0 && ((r[0] == s[0] && IsSubsequence(r[1..], s[1..])) || IsSubsequence(r, s[1..])))
  }

  /** `s.filter(p)`: the elements satisfying `p`, in their original order. */
  function Filter<T(==,!new)>(s: seq<T>, p: T -> bool): (r: seq<T>)
    ensures |r| <= |s|
    ensures forall i :: 0 <= i < |r| ==> p(r[i])
    ensures forall x {:trigger x in r} :: x in r <==> x in s && p(x)
    ensures IsSubsequence(r, s)
    decreases |s|
  {
    if |s| == 0 then []
    else
      var rest := Filter(s[1..], p);
      if p(s[0]) then
        assert ([s[0]] + rest)[1..] == rest;
        [s[0]] + rest
      else rest
  }

  /** `filter` keeps every occurrence of an element that passes and none of
      one that fails: the result is the sub-multiset of passing elements. */
  lemma {:induction false} FilterMultiset<T(!new)>(s: seq<T>, p: T -> bool)
    ensures forall x :: multiset(Filter(s, p))[x] == (if p(x) then multiset(s)[x] else 0)
    decreases |s|
  {
    if |s| > 0 {
      FilterMultiset(s[1..], p);
      assert s == [s[0]] + s[1..];
      assert multiset(s) == multiset([s[0]]) + multiset(s[1..]);
      if p(s[0]) {
        assert multiset(Filter(s, p)) == multiset([s[0]]) + multiset(Filter(s[1..], p));
      }
    }
  }

  /** Keeping every element keeps the whole list. */
  lemma {:induction false} FilterAll<T(!new)>(s: seq<T>, p: T -> bool)
    requires forall i :: 0 <= i < |s| ==> p(s[i])
    ensures Filter(s, p) == s
    decreases |s|
  {
    if |s| > 0 {
      FilterAll(s[1..], p);
      assert s == [s[0]] + s[1..];
    }
  }

  /** Elements kept by `p` and by its negation make up the whole list. */
  lemma FilterSplitsLength<T(!new)>(s: seq<T>, p: T -> bool)
    ensures |Filter(s, p)| + |Filter(s, x => !p(x))| == |s|
    decreases |s|
  {
    if |s| > 0 {
      FilterSplitsLength(s[1..], p);
    }
  }

  /** Two tests that agree everywhere keep the same elements. */
  lemma {:induction false} FilterSameTest<T(!new)>(s: seq<T>, p: T -> bool, q: T -> bool)
    requires forall x :: p(x) == q(x)
    ensures Filter(s, p) == Filter(s, q)
    decreases |s|
  {
    if |s| > 0 {
      FilterSameTest(s[1..], p, q);
    }
  }

  /** Two tests that never both hold split off disjoint parts of the input,
      so their filtered lengths add up to at most its length. */
  lemma {:induction false} FilterDisjointLengths<T(!new)>(s: seq<T>, p: T -> bool, q: T -> bool)
    requires forall x :: !(p(x) && q(x))
    ensures |Filter(s, p)| + |Filter(s, q)| <= |s|
    decreases |s|
  {
    if |s| > 0 {
      FilterDisjointLengths(s[1..], p, q);
    }
  }

  /** The positions of `s` whose element satisfies `p`. */
  ghost function IndicesWhere<T>(s: seq<T>, p: T -> bool): set<int> {
    set i | 0 <= i < |s| && p(s[i])
  }

  /** Filtering distributes over concatenation. */
  lemma {:induction false} FilterAppend<T(!new)>(a: seq<T>, b: seq<T>, p: T -> bool)
    ensures Filter(a + b, p) == Filter(a, p) + Filter(b, p)
    decreases |a|
  {
    if |a| > 0 {
      FilterAppend(a[1..], b, p);
      assert (a + b)[0] == a[0] && (a + b)[1..] == a[1..] + b;
      var head := if p(a[0]) then [a[0]] else [];
      assert Filter(a + b, p) == head + Filter(a[1..] + b, p);
      assert Filter(a, p) == head + Filter(a[1..], p);
    } else {
      assert a + b == b;
    }
  }

  /** `s.filter(p).length` is the number of positions whose element
      satisfies `p`. */
  lemma {:induction false} FilterLengthCountsPositions<T(!new)>(s: seq<T>, p: T -> bool)
    ensures |Filter(s, p)| == |IndicesWhere(s, p)|
    decreases |s|
  {
    if |s| == 0 {
      assert IndicesWhere(s, p) == {};
    } else {
      var n := |s| - 1;
      var init := s[..n];
      FilterLengthCountsPositions(init, p);
      assert s == init + [s[n]];
      FilterAppend(init, [s[n]], p);
      assert forall i :: 0 <= i < n ==> init[i] == s[i];
      if p(s[n]) {
        assert IndicesWhere(s, p) == IndicesWhere(init, p) + {n};
      } else {
        assert IndicesWhere(s, p) == IndicesWhere(init, p);
      }
    }
  }

  /** The index of the first element satisfying `p`, if any. */
  function FindIndex<T>(s: seq<T>, p: T -> bool): (r: Option<nat>)
    ensures r.Some? ==> r.value < |s| && p(s[r.value])
    ensures r.Some? ==> forall j :: 0 <= j < r.value ==> !p(s[j])
    ensures r.None? <==> forall i :: 0 <= i < |s| ==> !p(s[i])
    decreases |s|
  {
    if |s| == 0 then None
    else if p(s[0]) then Some(0)
    else
      match FindIndex(s[1..], p)
      case None => None
      case Some(k) => Some(k + 1)
  }

  /** `s.find(p)`: the first element satisfying `p`, or nothing. */
  function Find<T>(s: seq<T>, p: T -> bool): (r: Option<T>)
    ensures r.None? <==> forall i :: 0 <= i < |s| ==> !p(s[i])
    ensures r.Some? ==> exists i :: 0 <= i < |s| && s[i] == r.value && p(s[i])
                                    && forall j :: 0 <= j < i ==> !p(s[j])
  {
    match FindIndex(s, p)
    case None => None
    case Some(i) => Some(s[i])
  }

  // ---------------------------------------------------------------------------
  // Sorting by a numeric key

  ghost predicate SortedBy<T>(s: seq<T>, key: T -> int) {
    forall i, j :: 0 <= i < j < |s| ==> key(s[i]) <= key(s[j])
  }

  /** Places `x` after every leading element whose key is not larger than
      its own. */
  function InsertBy<T(==)>(x: T, s: seq<T>, key: T -> int): (r: seq<T>)
    ensures |r| == |s| + 1
    ensures multiset(r) == multiset(s) + multiset{x}
    decreases |s|
  {
    if |s| == 0 then [x]
    else if key(x) < key(s[0]) then [x] + s
    else
      assert s == [s[0]] + s[1..];
      [s[0]] + InsertBy(x, s[1..], key)
  }

  /** Inserting keeps every key at or above a common lower bound. */
  lemma {:induction false} InsertByBounded<T>(x: T, s: seq<T>, key: T -> int, b: int)
    requires b <= key(x)
    requires forall i :: 0 <= i < |s| ==> b <= key(s[i])
    ensures forall i :: 0 <= i < |s| + 1 ==> b <= key(InsertBy(x, s, key)[i])
    decreases |s|
  {
    if |s| > 0 && key(x) >= key(s[0]) {
      InsertByBounded(x, s[1..], key, b);
    }
  }

  /** Inserting into a sorted list keeps it sorted. */
  lemma {:induction false} InsertBySorted<T>(x: T, s: seq<T>, key: T -> int)
    requires SortedBy(s, key)
    ensures SortedBy(InsertBy(x, s, key), key)
    decreases |s|
  {
    if |s| > 0 && key(x) >= key(s[0]) {
      var rest := InsertBy(x, s[1..], key);
      InsertBySorted(x, s[1..], key);
      InsertByBounded(x, s[1..], key, key(s[0]));
      var r := [s[0]] + rest;
      forall i, j | 0 <= i < j < |r| ensures key(r[i]) <= key(r[j]) {
        if i > 0 {
          assert r[i] == rest[i - 1] && r[j] == rest[j - 1];
        } else {
          assert r[j] == rest[j - 1];
        }
      }
    }
  }

  /** Sorts `s` ascending by `key` (insertion sort; each element goes after
      the earlier ones with an equal key). */
  function SortBy<T(==)>(s: seq<T>, key: T -> int): (r: seq<T>)
    ensures multiset(r) == multiset(s)
    ensures |r| == |s|
    ensures SortedBy(r, key)
    decreases |s|
  {
    if |s| == 0 then []
    else
      assert s == s[..|s| - 1] + [s[|s| - 1]];
      var sorted := SortBy(s[..|s| - 1], key);
      InsertBySorted(s[|s| - 1], sorted, key);
      InsertBy(s[|s| - 1], sorted, key)
  }
}

=== FILE: sidebar.dfy ===
/** The navigation sidebar: which links a user sees, which one is
    highlighted, and the role label. */
module Sidebar {
  import opened Wrappers
  import opened Effects
  import Auth
  import Guard

  datatype Link = Link(href: string, text: string)

  const EmployeeLinks: seq<Link> := [
    Link("/dashboard", "Dashboard"),
    Link("/dashboard/attendance", "Attendance"),
    Link("/dashboard/leave-requests", "Leave Requests"),
    Link("/dashboard/job-roles", "Apply for Jobs"),
    Link("/dashboard/department-work", "Department Work")
  ]

  const HrLinks: seq<Link> := [
    Link("/hr-dashboard", "Dashboard"),
    Link("/hr-dashboard/employees", "Employees"),
    Link("/hr-dashboard/recruitment", "Recruitment"),
    Link("/hr-dashboard/leave-management", "Leave Management"),
    Link("/hr-dashboard/payroll", "Payroll")
  ]

  /** The link set: HR links for role "hr", employee links otherwise,
      including when nobody is signed in. */
  function Links(user: Option<User>): (r: seq<Link>)
    ensures r == HrLinks <==> user.Some? && user.value.role == "hr"
    ensures r == EmployeeLinks <==> !(user.Some? && user.value.role == "hr")
  {
    if user.Some? && user.value.role == "hr" then HrLinks else EmployeeLinks
  }

  /** A link is highlighted when the current path is exactly its target. */
  predicate IsActive(pathname: string, link: Link) {
    pathname == link.href
  }

  ghost predicate DistinctHrefs(links: seq<Link>) {
    forall i, j :: 0 <= i < j < |links| ==> links[i].href != links[j].href
  }

  predicate StartsWith(s: string, prefix: string) {
    |prefix| <= |s| && s[..|prefix|] == prefix
  }

  /** The employee links: five entries with pairwise different targets,
      all under "/dashboard". */
  lemma EmployeeLinksWellFormed()
    ensures |EmployeeLinks| == 5 && DistinctHrefs(EmployeeLinks)
    ensures forall i :: 0 <= i < |EmployeeLinks| ==> StartsWith(EmployeeLinks[i].href, "/dashboard")
  {
    forall i | 0 <= i < |EmployeeLinks| ensures StartsWith(EmployeeLinks[i].href, "/dashboard") {
      assert EmployeeLinks[i].href[..10] == "/dashboard";
    }
  }

  /** The HR links: five entries with pairwise different targets, all under
      "/hr-dashboard". */
  lemma HrLinksWellFormed()
    ensures |HrLinks| == 5 && DistinctHrefs(HrLinks)
    ensures forall i :: 0 <= i < |HrLinks| ==> StartsWith(HrLinks[i].href, "/hr-dashboard")
  {
    forall i | 0 <= i < |HrLinks| ensures StartsWith(HrLinks[i].href, "/hr-dashboard") {
      assert HrLinks[i].href[..13] == "/hr-dashboard";
    }
  }

  /** With distinct targets, at most one link is highlighted for any path. */
  lemma AtMostOneActive(links: seq<Link>, pathname: string, i: int, j: int)
    requires DistinctHrefs(links)
    requires 0 <= i < |links| && 0 <= j < |links|
    requires IsActive(pathname, links[i]) && IsActive(pathname, links[j])
    ensures i == j
  {
  }

  /** Whatever the user, the sidebar highlights at most one link. */
  lemma SidebarHighlightsAtMostOne(user: Option<User>, pathname: string, i: int, j: int)
    requires 0 <= i < |Links(user)| && 0 <= j < |Links(user)|
    requires IsActive(pathname, Links(user)[i]) && IsActive(pathname, Links(user)[j])
    ensures i == j
  {
    EmployeeLinksWellFormed();
    HrLinksWellFormed();
    AtMostOneActive(Links(user), pathname, i, j);
  }

  /** The label under the user's name. */
  function RoleLabel(role: string): (r: string)
    ensures r == "HR Admin" <==> role == "hr"
    ensures r == "Employee" <==> role != "hr"
  {
    if role == "hr" then "HR Admin" else "Employee"
  }

  /** The sidebar and the login page agree: for a signed-in user the first
      link is the page `Index` sends them to, and every link lies below it. */
  lemma SidebarAgreesWithIndex(auth: Auth.AuthView, home: string)
    requires auth.isAuthenticated && Guard.Index(auth) == Guard.GoTo(home)
    ensures Links(auth.user)[0].href == home
    ensures forall i :: 0 <= i < |Links(auth.user)| ==> StartsWith(Links(auth.user)[i].href, home)
  {
    if auth.user.Some? && auth.user.value.role == "hr" {
      HrLinksWellFormed();
    } else {
      EmployeeLinksWellFormed();
    }
  }
}

=== FILE: text.dfy ===
/** The string operations the portal's screens rely on: ASCII case folding
    (standing in for `toLowerCase`/`toUpperCase`), substring search
    (`String.prototype.includes`), `trim`, first-letter capitalisation and
    JavaScript truthiness of optional strings. */
module Text {
  import opened Wrappers

  function LowerChar(c: char): char {
    if 'A' <= c <= 'Z' then (c as int + 32) as char else c
  }

  function UpperChar(c: char): char {
    if 'a' <= c <= 'z' then (c as int - 32) as char else c
  }

  /** `s.toLowerCase()`, restricted to ASCII letters. */
  function Lower(s: string): string {
    seq(|s|, i requires 0 <= i < |s| => LowerChar(s[i]))
  }

  lemma LowerIdempotent(s: string)
    ensures Lower(Lower(s)) == Lower(s)
  {
  }

  // ---------------------------------------------------------------------------
  // Substring search

  /** `needle` occurs in `hay` starting at position `i`. */
  ghost predicate OccursAt(needle: string, hay: string, i: int) {
    0 <= i && i + |needle| <= |hay| && hay[i..i + |needle|] == needle
  }

  /** Reference definition of "`hay` contains `needle`". */
  ghost predicate IsInfix(needle: string, hay: string) {
    exists i :: OccursAt(needle, hay, i)
  }

  /** `hay.includes(needle)`: tries every start position from the left. */
  function Includes(hay: string, needle: string): bool
    decreases |hay|
  {
    if |needle| > |hay| then false
    else if |needle| == 0 || hay[..|needle|] == needle then true
    else Includes(hay[1..], needle)
  }

  lemma {:induction false} IncludesIsInfix(hay: string, needle: string)
    ensures Includes(hay, needle) <==> IsInfix(needle, hay)
    decreases |hay|
  {
    if |needle| > |hay| {
      assert forall i :: !OccursAt(needle, hay, i);
    } else if |needle| == 0 || hay[..|needle|] == needle {
      assert OccursAt(needle, hay, 0);
    } else {
      IncludesIsInfix(hay[1..], needle);
      if IsInfix(needle, hay) {
        var i :| OccursAt(needle, hay, i);
        assert i != 0;
        assert hay[1..][i - 1..i - 1 + |needle|] == hay[i..i + |needle|];
        assert OccursAt(needle, hay[1..], i - 1);
      }
      if IsInfix(needle, hay[1..]) {
        var i :| OccursAt(needle, hay[1..], i);
        assert hay[1..][i..i + |needle|] == hay[i + 1..i + 1 + |needle|];
        assert OccursAt(needle, hay, i + 1);
      }
    }
  }

  /** `hay.toLowerCase().includes(term.toLowerCase())`. */
  predicate ContainsIgnoringCase(hay: string, term: string) {
    Includes(Lower(hay), Lower(term))
  }

  /** The search test every list screen uses, stated against the reference
      definition of containment. */
  lemma ContainsIgnoringCaseMeaning(hay: string, term: string)
    ensures ContainsIgnoringCase(hay, term) <==> IsInfix(Lower(term), Lower(hay))
  {
    IncludesIsInfix(Lower(hay), Lower(term));
  }

  /** An empty search term is found in every string. */
  lemma EmptyTermMatches(hay: string)
    ensures ContainsIgnoringCase(hay, "")
  {
  }

  /** Every string contains itself, whatever the case of either side. */
  lemma {:induction false} ContainsItself(hay: string)
    ensures ContainsIgnoringCase(hay, hay)
  {
    assert Lower(hay)[..|Lower(hay)|] == Lower(hay);
  }

  /** `a.toLowerCase() === b.toLowerCase()`. */
  predicate EqualsIgnoringCase(a: string, b: string) {
    Lower(a) == Lower(b)
  }

  // ---------------------------------------------------------------------------
  // trim

  /** ECMAScript WhiteSpace and LineTerminator code points, the set `trim`
      removes. */
  predicate IsSpace(c: char) {
    var n := c as int;
    n == 0x20 || 0x09 <= n <= 0x0D || n == 0xA0 || n == 0x1680
    || 0x2000 <= n <= 0x200A || n == 0x2028 || n == 0x2029 || n == 0x202F
    || n == 0x205F || n == 0x3000 || n == 0xFEFF
  }

  ghost predicate AllSpace(s: string) {
    forall i :: 0 <= i < |s| ==> IsSpace(s[i])
  }

  function TrimStart(s: string): string
    decreases |s|
  {
    if |s| > 0 && IsSpace(s[0]) then TrimStart(s[1..]) else s
  }

  function TrimEnd(s: string): string
    decreases |s|
  {
    if |s| > 0 && IsSpace(s[|s| - 1]) then TrimEnd(s[..|s| - 1]) else s
  }

  /** `s.trim()`: the middle part of `s` between a white-space prefix and a
      white-space suffix, starting and ending with a character that is not
      white space. */
  function Trim(s: string): (r: string)
    ensures r != "" ==> !IsSpace(r[0]) && !IsSpace(r[|r| - 1])
    ensures exists k :: 0 <= k <= |s| - |r| && r == s[k..k + |r|] && AllSpace(s[..k]) && AllSpace(s[k + |r|..])
  {
    var t := TrimStart(s);
    TrimStartEmpty(s);
    TrimStartShape(s);
    TrimEndEmpty(t);
    TrimEndShape(t);
    var k := |s| - |t|;
    var r := TrimEnd(t);
    assert r == s[k..k + |r|];
    assert s[k + |r|..] == t[|r|..];
    r
  }

  /** `!s.trim()`: the string is empty once surrounding white space is removed. */
  predicate IsBlank(s: string) {
    Trim(s) == ""
  }

  lemma {:induction false} TrimStartEmpty(s: string)
    ensures TrimStart(s) == "" <==> AllSpace(s)
    ensures TrimStart(s) != "" ==> !IsSpace(TrimStart(s)[0])
    decreases |s|
  {
    if |s| > 0 && IsSpace(s[0]) {
      TrimStartEmpty(s[1..]);
      if AllSpace(s[1..]) {
        forall i | 0 <= i < |s| ensures IsSpace(s[i]) {
          if i > 0 { assert s[i] == s[1..][i - 1]; }
        }
      }
      if AllSpace(s) {
        forall i | 0 <= i < |s| - 1 ensures IsSpace(s[1..][i]) {
          assert s[1..][i] == s[i + 1];
        }
      }
    }
  }

  lemma {:induction false} TrimEndEmpty(s: string)
    ensures TrimEnd(s) == "" <==> AllSpace(s)
    ensures TrimEnd(s) != "" ==> TrimEnd(s)[0] == s[0]
    decreases |s|
  {
    if |s| > 0 && IsSpace(s[|s| - 1]) {
      var t := s[..|s| - 1];
      TrimEndEmpty(t);
      if AllSpace(t) {
        forall i | 0 <= i < |s| ensures IsSpace(s[i]) {
          if i < |s| - 1 { assert s[i] == t[i]; }
        }
      }
      if AllSpace(s) {
        forall i | 0 <= i < |t| ensures IsSpace(t[i]) {
          assert t[i] == s[i];
        }
      }
    }
  }

  /** `TrimStart` drops a white-space prefix and keeps the rest. */
  lemma {:induction false} TrimStartShape(s: string)
    ensures |TrimStart(s)| <= |s|
    ensures TrimStart(s) == s[|s| - |TrimStart(s)|..]
    ensures AllSpace(s[..|s| - |TrimStart(s)|])
    decreases |s|
  {
    if |s| > 0 && IsSpace(s[0]) {
      TrimStartShape(s[1..]);
      var k := |s| - |TrimStart(s)|;
      forall i | 0 <= i < k ensures IsSpace(s[..k][i]) {
        if i > 0 { assert s[..k][i] == s[1..][..k - 1][i - 1]; }
      }
    }
  }

  /** `TrimEnd` drops a white-space suffix and keeps the rest, which does not
      end in white space. */
  lemma {:induction false} TrimEndShape(s: string)
    ensures |TrimEnd(s)| <= |s|
    ensures TrimEnd(s) == s[..|TrimEnd(s)|]
    ensures AllSpace(s[|TrimEnd(s)|..])
    ensures TrimEnd(s) != "" ==> !IsSpace(TrimEnd(s)[|TrimEnd(s)| - 1])
    decreases |s|
  {
    if |s| > 0 && IsSpace(s[|s| - 1]) {
      var t := s[..|s| - 1];
      TrimEndShape(t);
      var m := |TrimEnd(s)|;
      forall i | 0 <= i < |s| - m ensures IsSpace(s[m..][i]) {
        if i < |s| - 1 - m { assert s[m..][i] == t[m..][i]; }
      }
    }
  }

  /** A string is blank exactly when it consists of white space only. */
  lemma BlankIffAllSpace(s: string)
    ensures IsBlank(s) <==> AllSpace(s)
  {
    TrimStartEmpty(s);
    var t := TrimStart(s);
    TrimEndEmpty(t);
  }

  // ---------------------------------------------------------------------------
  // Capitalisation and truthiness

  /** `s.charAt(0).toUpperCase() + s.slice(1)`. */
  function Capitalize(s: string): (r: string)
    ensures |r| == |s|
    ensures |s| > 0 ==> r[0] == UpperChar(s[0]) && r[1..] == s[1..]
  {
    if |s| == 0 then "" else [UpperChar(s[0])] + s[1..]
  }

  /** An optional string is truthy in JavaScript when present and non-empty. */
  predicate Present(o: Option<string>) {
    o.Some? && o.value != ""
  }

  /** `o || fallback` for an optional string. */
  function OrElse(o: Option<string>, fallback: string): (r: string)
    ensures Present(o) ==> r == o.value
    ensures !Present(o) ==> r == fallback
  {
    if Present(o) then o.value else fallback
  }
}

=== FILE: ui.dfy ===
/** Badge and text colours used by the screens (the Tailwind colour family
    of the class names). */
module Ui {
  datatype Tone = Gray | Green | Blue | Red | Purple | Orange | Yellow
}

=== FILE: wrappers.dfy ===
/** Optional values and results: `null`/`undefined` in the portal becomes None,
    a thrown error becomes Failure. */
module Wrappers {

  datatype Option<+T> = None | Some(value: T) {

    /** Returns the wrapped value, or `default` when there is none. */
    function GetOr(default: T): T {
      match this
      case Some(v) => v
      case None => default
    }
  }

  datatype Result<+R, +E> = Success(value: R) | Failure(error: E)
}
